=== FILE: README.md ===
# node-addon-api ownership and error paths, in Dafny

This project models the part of node-addon-api's C++ wrapper (`napi-inl.h`,
`napi.h`) where native code holds and gives back host resources. That part
decides whether a handle leaks, is deleted twice, or throws the right error:

- **Reference&lt;T&gt;** (with `Weak` and `Persistent`). A move-only owner of one
  `napi_ref`, covering its constructors, destructor, move constructor, move
  assignment, `Reset`, `Ref`/`Unref` and `SuppressDestruct`.
- **Error::New(env)**. It turns the host's last-error report into the thrown
  error. A pending exception is taken as is. Otherwise, as written, every
  built error is a plain `Error`: the code is read only after a successful
  host call has reset it (see "## Findings"). The code is evidently meant to
  give a `TypeError` for the four "wrong type" statuses
  (`napi_object_expected`, `napi_string_expected`, `napi_boolean_expected`,
  `napi_number_expected`), and only the corrected version does. The message
  is the host's, or "Error in native callback" when the host has none.
  **Error::New(env, message)** is also modelled; it throws the corrected
  `Error::New(env)` when it fails.
- **TypedArray**: `ElementSize`, `ElementLength` and `ByteLength`. The type and
  length are fetched from the host once and then cached. `ByteLength` is
  computed in 64-bit `size_t`.
- **CallbackInfo**: it copies the call's arguments into six inline slots, or
  into a heap array when there are more. Also modelled: `Length`, `operator[]`
  (`undefined` past the end), `This` and the destructor.
- **AsyncWorker**. Modelled: construction (two persistent references and a work
  item whose context is the worker's own address), `Queue`, `Cancel`,
  `OnExecute`, `OnWorkComplete`, the default `OnOK`/`OnError`, destruction,
  and both moves. `OnExecute` captures a `std::exception`'s `what()`.
  `OnWorkComplete` runs at most one handler (none when the Error for
  `OnError` cannot be built), rethrows a `Napi::Error` as a
  script exception, and deletes the worker on every path that does not
  escape.

The host's ABI (`napi_create_reference`, `napi_delete_reference`,
`napi_reference_ref`/`unref`, `napi_create_async_work`,
`napi_delete_async_work`) is modelled in module `Host`. The host state holds:

- a table of live handles;
- the next fresh handle;
- a multiset log of every delete the host accepted.

"Released exactly once" means the handle's count in that log is 1. A count of 2
would be a double delete.

Every other host reply is an input of the operation that makes the call: the
status of a call that may fail, what `napi_get_last_error_info` reports, the
arguments of a call site, and the array type and length. A thrown `Napi::Error`
is modelled as the status of the failing call. The `Step` datatype records the
object's and the host's state at the point an operation throws.

Modules, one per component: `Wrappers` (Option, Result), `Host`, `References`
and `ReferenceLifetimes`, `Errors`, `TypedArrays`, `CallbackInfos`,
`AsyncWorkers` and `WorkerLifecycle`.

The number of inline argument slots, `CallbackInfos.StaticArgCount = 6`, is
declared at `napi.h:623`.

Three points where the code does something other than a reader might expect.
The model follows the code in each (the defects under "## Findings" are
modelled both as written and corrected):

- **An empty `what()` counts as success.** If `Execute()` throws a
  `std::exception` whose `what()` is empty, `OnOK` runs, not `OnError`. The
  worker only checks whether the captured text is empty
  (`WorkerLifecycle.EmptyWhatRunsOnOK`).
- **The declaration in `napi.h` does not match the implementation.** The
  AsyncWorker declared at `napi.h:814-854` has `Persistent()`,
  `SetErrorMessage` and `OnDestroy`. The definitions in `napi-inl.h:2568-2673`
  have `Receiver()`, `SetError` and `Cancel`. The model follows the
  definitions.
- **The two files disagree on types.** In `napi.h`, `CallbackInfo::Length`
  returns `int` and `operator[]` takes an `int` index. In `napi-inl.h` both
  use `size_t`. The model uses
  unbounded naturals for both.

## Model

| member | source | states |
|---|---|---|
| `References.New` | napi-inl.h:1520-1534 | A null value gives an empty reference and makes no host call. Otherwise it throws exactly when `napi_create_reference` fails, with that status. On success it owns a handle that was not live or deleted before, with the requested count. Every other handle is unchanged. The new reference belongs to the value's env and is not suppressed. |
| `References.NewAsWritten` | napi-inl.h:1520-1544 | As written, every successful `New` yields a reference whose suppress flag was never written. The reference is empty exactly for a null value. |
| `References.Weak` | napi-inl.h:1655-1666 | `Weak(value)` succeeds iff the value is null or the host creates the reference. A non-empty result is weak (host count 0). |
| `References.Persistent` | napi-inl.h:1668-1679 | `Persistent(value)` succeeds under the same condition. A non-empty result is strong, with host count exactly 1. |
| `References.DestroyAsWritten` | napi-inl.h:1546-1555 | The destructor reads an unwritten flag exactly when the reference is non-empty and its flag was never set. An empty or suppressed reference leaves the host unchanged. Otherwise exactly its handle is deleted. |
| `References.Destroy` | napi-inl.h:1546-1555 | With a written flag, the destructor deletes the handle exactly when there is one and it is not suppressed. It adds exactly one entry to the delete log, removes only that handle and touches no work item. It keeps the host's tables consistent. |
| `References.Reset` | napi-inl.h:1629-1636 | `Reset()` throws exactly when a handle is held and the delete fails, and then nothing changes. Otherwise the reference is left empty, with env and flag untouched. The held handle is deleted once and nothing else in the host changes. Ownership stays consistent. |
| `References.ResetTo` | napi-inl.h:1638-1648 | A failing delete throws before anything changes. Otherwise the reference takes the value's env and keeps its flag. It throws exactly when the value is non-null and the create fails. It ends up owning a fresh handle with the given count exactly when the value is non-null and the create succeeds. The old handle is deleted exactly once. |
| `References.MoveConstructAsWritten` | napi-inl.h:1557-1563 | As written, the moved-to reference takes the handle and its flag is never written. The source is left empty. |
| `References.MoveConstruct` | napi-inl.h:1557-1563 | With the flag initialised to `false` (not copied from the source, so moving a suppressed reference drops the suppression), the new reference takes the env and handle, and the source keeps neither. Ownership is neither duplicated nor lost: both own live handles and are disjoint. The destructors of both read written flags. |
| `References.MoveAssign` | napi-inl.h:1565-1573 | For two distinct objects: throws exactly when the target holds a handle and the reset fails; then both objects are unchanged. Otherwise the target takes the source's env and handle and keeps its own flag, and the source is left empty. The target's old handle is deleted exactly once. Separate owners stay separate and valid. |
| `References.SuppressDestruct` | napi-inl.h:1650-1653 | Only the flag changes. It is now written and says suppressed, so the destructor will not delete. |
| `References.Ref` | napi-inl.h:1613-1619 | Succeeds iff the host accepts, which needs a live held handle. It then returns the old count plus one, stores it as the new count, and changes nothing else. |
| `References.Unref` | napi-inl.h:1621-1627 | Succeeds iff the host accepts, which needs a live held handle with a positive count. It then returns the old count minus one, stores it, and changes nothing else. |
| `ReferenceLifetimes.NewAsWrittenDestroyReadsIndeterminate` | napi-inl.h:1542-1555 | `New` on any non-null value, followed by the destructor, reads the unwritten `_suppressDestruct`. |
| `ReferenceLifetimes.MoveAsWrittenDestroyReadsIndeterminate` | napi-inl.h:1546-1563 | Destroying the target of a move from any non-empty reference reads the unwritten flag. |
| `ReferenceLifetimes.NewThenDestroyReleasesOnce` | napi-inl.h:1520-1555 | With the flag initialised, `New` then destroy hands out the next fresh handle and deletes it exactly once. The host stays consistent. |
| `ReferenceLifetimes.WeakStrongRoundTrip` | napi-inl.h:1613-1627 | A `Weak` reference becomes strong after `Ref()` (returning 1). It becomes weak again after `Unref()` (returning 0), and the host ends as it was before `Ref()`. |
| `ReferenceLifetimes.PersistentUnrefFloor` | napi-inl.h:1621-1627 | After `Persistent`, one `Unref()` returns 0 and leaves the reference weak. A second `Unref()` throws. |
| `References.SelfMoveAssign` | napi-inl.h:1565-1573 | `r = std::move(r)`: throws exactly when a handle is held and its delete fails, and then nothing changes. Otherwise the reference ends with neither env nor handle and keeps its flag. Its old handle is deleted exactly once, and ownership stays valid. |
| `ReferenceLifetimes.SelfMoveReleasesOnce` | napi-inl.h:1565-1573 | Self-move-assignment of an owned handle deletes it exactly once and leaves the destructor nothing to do. The two-object assignment applied to one value would instead leave the target holding the deleted handle, so self-assignment is modelled on its own. |
| `References.IsEmpty` | napi-inl.h:1596-1599 | An empty reference owns nothing on any host and its destructor reads no flag. A non-empty one does not count as owned on every host. What emptiness means for the destructor and `Reset()` is stated by `ReferenceLifetimes.EmptyHasNothingToRelease`. |
| `ReferenceLifetimes.EmptyHasNothingToRelease` | napi-inl.h:1596-1599 | `IsEmpty()` means there is nothing to release: the destructor and `Reset()` leave the host alone and cannot throw. A non-empty `Reset()` with a failing host throws with that status. A `Reset()` that does not throw always leaves the reference empty. |
| `ReferenceLifetimes.ResetToAccounted` | napi-inl.h:1638-1648 | `Reset(value, count)` keeps the ownership account: every handle created since a point is either the one held or deleted exactly once, and older handles are untouched. |
| `ReferenceLifetimes.ApplyAccounted` | napi-inl.h:1613-1653 | Every call a program can make on a reference keeps that account, whether the call throws or not: `Reset`, `Reset(value, count)`, `SuppressDestruct`, `Ref` and `Unref`. |
| `ReferenceLifetimes.RunAccounted` | napi-inl.h:1613-1653 | Any sequence of such calls keeps the account. |
| `ReferenceLifetimes.ReleasedExactlyOnce` | napi-inl.h:1538-1653 | Take a default-constructed reference, apply any sequence of calls, then destroy it. Every handle it ever owned has been deleted exactly once, except the final handle if `SuppressDestruct()` was called; that handle stays live and is never deleted. |
| `Errors.RouteOf` | napi-inl.h:1364-1390 | The branch `Error::New(env)` takes on a code: the pending exception exactly for `napi_pending_exception`, a TypeError exactly for the four type-expectation codes. `Errors.RouteOfClassifies` adds that every other code gives a plain Error. |
| `Errors.RouteOfClassifies` | napi-inl.h:1363-1390 | A pending exception is taken. A TypeError is built exactly for the four type-expectation statuses. A plain Error is built for every other status. |
| `Errors.MessageOf` | napi-inl.h:1369-1370 | The message is the host's own, or exactly "Error in native callback" when the host gives none. |
| `Errors.NewFromEnvAsWritten` | napi-inl.h:1355-1397 | As written, with asserts compiled out, and with the host's rule that a successful call resets the last-error record: the pending exception is taken iff the status is `napi_pending_exception` and clearing succeeds. Otherwise a built error exists iff both host calls succeed, and it is always a plain Error carrying `MessageOf`. No TypeError is ever built. |
| `Errors.NewFromEnvAsWrittenLosesTypeError` | napi-inl.h:1364-1390 | Every built error of the as-written code is plain. For the four type-expectation statuses, when the host cooperates, the as-written code builds a plain Error where the corrected one builds a TypeError, both with the same message. For every other status the two agree on every input. |
| `Errors.StringExpectedBecomesPlainError` | napi-inl.h:1364-1390 | Concretely: `napi_string_expected` with no host message gives a plain Error "Error in native callback" as written, and a TypeError with that message when corrected. |
| `Errors.NewFromEnv` | napi-inl.h:1355-1397 | Corrected (the code copied before `napi_create_string_utf8`), with asserts compiled out: the error wraps the pending exception iff the status is `napi_pending_exception` and clearing succeeds. A built error exists iff the status is anything else and both host calls succeed. It is a TypeError exactly for the type-expectation statuses and carries `MessageOf` as its message. Every other path leaves the error null. |
| `Errors.NewFromEnvFollowsRoute` | napi-inl.h:1363-1393 | For the corrected `Error::New(env)`, when every host call succeeds, each route produces exactly its error: the caught exception, a TypeError or a plain Error with the host's or the default message. |
| `Errors.NewWithMessage` | napi-inl.h:1473-1484 | `Error::New(env, message)` (lines 1399-1405, through this template) yields a plain Error carrying exactly `message` iff both host calls succeed. Otherwise it throws the corrected `Error::New(env)` for the last-error record of the call that failed: the string call's status if that failed, else the error constructor's. |
| `Errors.NewWithMessageThrowsByFailingStatus` | napi-inl.h:1473-1484 | With the corrected `Error::New(env)` inside, and when the host cooperates, a failing `Error::New(env, message)` throws: the pending exception iff the failing status is `napi_pending_exception`, otherwise a TypeError for the four type-expectation statuses and a plain Error for the rest, with the host's message. |
| `TypedArrays.SizeOfMatchesTable` | napi-inl.h:1010-1028 | The element-size switch agrees with the table 1/1/1/2/2/4/4/4/8. Every size is a power of two up to 8, and the size is 0 exactly for an unnamed type. |
| `TypedArrays.Fetch` | napi-inl.h:999-1008 | A filled cache is returned unchanged and the host is not asked. Otherwise the call succeeds iff the host's info call does, and stores exactly the reported type and length. A failure throws that status. |
| `TypedArrays.TypedArrayType` | napi-inl.h:999-1008 | Throws iff the cache is empty and the host fails, and then that status. Otherwise the array is left with its cache filled (unchanged if it was filled), and the result is the cached kind: the earlier one if there was one, else the reported one. `TypedArrays.CachedAnswersAreStable` and `TypedArrays.FreshArrayAsksHost` relate it to the other accessors. |
| `TypedArrays.ElementLength` | napi-inl.h:1030-1039 | Throws iff the cache is empty and the host's info call fails, and then that status. Otherwise the array is left with its cache filled, and the result is its cached length: the earlier one if the cache was filled, else the reported one. |
| `TypedArrays.ElementSize` | napi-inl.h:999-1028 | Throws iff the cache is empty and the host's info call fails, and then throws exactly that status. On success the cached array is unchanged if it was filled, and otherwise holds exactly the reported type and length. The size is that of the cached type, at most 8. |
| `TypedArrays.FreshArrayAsksHost` | napi-inl.h:988-1051 | An array wrapped from a bare value (type unknown) throws on `ByteLength` iff the host fails. Otherwise it caches exactly the reported type and length, and `ElementSize`/`ElementLength` are the reported type's size and the reported length. |
| `TypedArrays.ByteLength` | napi-inl.h:1049-1051 | Throws exactly when the cache is empty and the host fails. Otherwise the host is asked at most once, and the result is the element size times the element count, reduced modulo 2^64. |
| `TypedArrays.ByteLengthOrderIrrelevant` | napi-inl.h:1049-1051 | Evaluating `ElementLength()` before `ElementSize()` gives the same result, cache and exception. |
| `TypedArrays.CachedAnswersAreStable` | napi-inl.h:999-1039 | Once fetched, type, element size, element length and byte length are answered from the cache whatever the host would reply. The answers equal those of the first call. |
| `TypedArrays.ByteLengthExact` | napi-inl.h:1049-1051 | Without overflow the byte length is the exact product. It is 0 exactly when the type is unnamed or the array is empty. |
| `TypedArrays.KnownArrayNeverQueries` | napi-inl.h:992-997 | An array constructed with a known type and length answers `ByteLength` without the host, even when the host would fail. |
| `CallbackInfos.ConstructAsWritten` | napi-inl.h:1887-1903 | As written, a constructor that throws has freed nothing. |
| `CallbackInfos.Construct` | napi-inl.h:1887-1903 | Succeeds exactly when the first info call succeeds, and also the second when there are more than six arguments. It throws the status of the failing call. The built info holds exactly the call's arguments and receiver. They sit on the heap exactly when there are more than six. What was allocated before a throw is freed. |
| `CallbackInfos.Destroy` | napi-inl.h:1905-1909 | The destructor frees one array exactly when the arguments are on the heap. |
| `CallbackInfos.This` | napi-inl.h:1923-1928 | The receiver, or `undefined` when the host gave none. |
| `CallbackInfos.ThisReadsReceiver` | napi-inl.h:1887-1928 | On a constructed info, `This()` is the call's receiver when there is one and `undefined` otherwise; it is never null. |
| `CallbackInfos.Length` | napi-inl.h:1915-1917 | For a well-formed info, the number of stored argument values. `CallbackInfos.AtReadsArguments` ties it to the call's own argument count. |
| `CallbackInfos.At` | napi-inl.h:1919-1921 | `info[i]` is the i-th stored value below `Length()` and `undefined` at or past it, so it is always a stored argument or `undefined`. `CallbackInfos.AtReadsArguments` ties it to the call's own arguments. |
| `CallbackInfos.AtReadsArguments` | napi-inl.h:1915-1921 | `Length()` is the number of arguments. `info[i]` is the i-th argument of the call, and `undefined` at or past the end. |
| `CallbackInfos.ConstructBalancesHeap` | napi-inl.h:1887-1909 | Every heap array the corrected constructor allocates is freed exactly once: by the destructor of the built object, or before the throw. |
| `CallbackInfos.ConstructAsWrittenLeaks` | napi-inl.h:1894-1902 | As written, seven arguments and a failing second `napi_get_cb_info` allocate one array and free none. |
| `AsyncWorkers.ConstructAsWritten` | napi-inl.h:2572-2579 | As written, each `Persistent()` reference comes from `Reference::New` and a move constructor, neither of which writes the suppress flag. With every host call succeeding the worker is built; its references have unwritten flags, so it is well-formed iff both values are null. With a non-null receiver, a failing callback reference or work item makes the unwinding destructor read an unwritten flag. |
| `AsyncWorkers.Construct` | napi-inl.h:2572-2579 | Corrected references. Succeeds iff both persistent references (for non-null values) and the work item are created, and a throw carries the status of the first call that failed: receiver reference, callback reference, then work item. The worker then has the callback's env, no error, a fresh work item, and strong references exactly for non-null values. |
| `AsyncWorkers.WorkItemRegistered` | napi-inl.h:2576-2578 | The work item created for two owned, disjoint references is live, registered with the worker's own address, and leaves the host consistent. |
| `AsyncWorkers.ConstructKeepsHost` | napi-inl.h:2572-2579 | A constructed worker owns a live work item registered with its own address, plus two distinct owned references. A throwing constructor leaves the host's references and work items as they were. |
| `AsyncWorkers.ConstructForCallback` | napi-inl.h:2568-2570 | Throws if creating the new receiver object fails. Otherwise it behaves as construction with that object, and the worker always has a receiver. |
| `AsyncWorkers.Destroy` | napi-inl.h:2581-2586 | Deletes the work item if there is one. It releases each unsuppressed reference exactly once and keeps the host consistent. |
| `AsyncWorkers.Queue` | napi-inl.h:2617-2620 | Throws unless the host accepts; a host failure throws that status. |
| `AsyncWorkers.Cancel` | napi-inl.h:2622-2625 | Throws unless the host accepts, for instance when the work has already started; a host failure throws that status. |
| `AsyncWorkers.SetError` | napi-inl.h:2643-2645 | Replaces the captured error and changes nothing else. |
| `AsyncWorkers.ApplySetsLastWins` | napi-inl.h:2643-2645 | A sequence of `SetError` calls changes only the error, and the last one wins. |
| `AsyncWorkers.OnExecute` | napi-inl.h:2647-2654 | Only an exception that is not a `std::exception` escapes. A `std::exception` replaces the error with its `what()`. A normal return keeps the error from the last `SetError`, if any. |
| `AsyncWorkers.OnWorkComplete` | napi-inl.h:2656-2673 | Cancelled: no handler runs and the worker is deleted. Otherwise, once the scope opens: `OnOK` runs iff the error is empty. `OnError` runs iff it is not and the error can be built, with a plain Error of exactly that text. A `Napi::Error` is rethrown as a script exception. Every completed path deletes the worker. |
| `AsyncWorkers.DefaultInvocation` | napi-inl.h:2635-2641 | The default `OnOK` calls the callback on the receiver with no arguments. `OnError` calls it with the error as the only argument. |
| `AsyncWorkers.MoveConstruct` | napi-inl.h:2588-2596 | The new worker takes env, work item, references and error. The source keeps none of them. Ownership stays separate and valid. |
| `AsyncWorkers.MoveAssignAsWritten` | napi-inl.h:2598-2607 | As written, move assignment never touches the host's work items, yet the target's work item is overwritten by the source's. |
| `AsyncWorkers.MoveAssign` | napi-inl.h:2598-2607 | Corrected: the target's old work item is deleted exactly once and the source's changes hands. It throws exactly when a reference reset fails. Without a throw, the references and error move across. Both workers stay valid and separate. |
| `WorkerLifecycle.DestroyReleasesAll` | napi-inl.h:2581-2586 | Deleting a worker releases its work item and both references, each exactly once. |
| `WorkerLifecycle.CancelledIsSilent` | napi-inl.h:2656-2673 | Cancelled before start: no handler, no script exception, and every handle is released exactly once. |
| `WorkerLifecycle.ExactlyOneHandler` | napi-inl.h:2659-2668 | Not cancelled and with the scope open, exactly one handler runs. It is `OnOK` iff the error is empty, and `OnError` with exactly the error text iff it is not. |
| `WorkerLifecycle.ReturnRunsOnOK` | napi-inl.h:2647-2663 | A fresh worker whose `Execute()` returns without `SetError` gets `OnOK`. |
| `WorkerLifecycle.ThrowRunsOnError` | napi-inl.h:2647-2668 | An `Execute()` throwing a `std::exception` with non-empty text gets `OnError`, with an Error of exactly that text, whatever it set before. |
| `WorkerLifecycle.EmptyWhatRunsOnOK` | napi-inl.h:2647-2663 | A `std::exception` with empty `what()` gets `OnOK`. |
| `WorkerLifecycle.SetErrorRoutesToOnError` | napi-inl.h:2643-2668 | A non-empty `SetError` followed by a normal return gets `OnError` with that text. |
| `WorkerLifecycle.HandlerErrorBecomesScriptException` | napi-inl.h:2659-2673 | A `Napi::Error` thrown by the handler becomes the pending script exception, and the worker is still deleted. |
| `WorkerLifecycle.ErrorConstructionFailureIsRethrown` | napi-inl.h:2664-2670 | If creating the string for `OnError`'s Error fails with a status other than a pending exception, no handler runs. The Error that the corrected `Error::New(env)` builds from that status is rethrown (a TypeError for the type-expectation statuses, else a plain Error, with the host's message), and the worker is deleted. |
| `WorkerLifecycle.DefaultHandlersReportOutcome` | napi-inl.h:2635-2668 | With the scope open, the default handlers call the callback on the receiver with no arguments iff the captured error is empty, and otherwise with exactly one plain Error of that text. No call is made when that Error cannot be built. |
| `WorkerLifecycle.MovedFromWorkerIsInert` | napi-inl.h:2588-2625 | A moved-from worker is well-formed and holds nothing. `Queue()` and `Cancel()` are refused with `napi_invalid_arg`, or the host's own failure, and its destructor leaves the host exactly as it was. |
| `WorkerLifecycle.AsWrittenWorkerReadsUnwrittenFlag` | napi-inl.h:2572-2579 | As written (through `Persistent()` at lines 1673-1693 and the reference constructors at 1542-1563), a worker built with a non-null receiver is not well-formed: its receiver's destructor reads an unwritten flag. If the work item then fails to be created, the constructor cannot unwind without such a read. |
| `WorkerLifecycle.CompletionDeletesUnlessEscaped` | napi-inl.h:2656-2673 | Every completion that does not escape releases every handle exactly once. It escapes exactly when the scope fails to open, the handler throws a non-`Napi::Error`, or rethrowing fails. |
| `WorkerLifecycle.DiskReadFailedScenario` | napi-inl.h:2639-2668 | An `Execute()` throwing "disk read failed" makes the default `OnError` call the callback on the receiver with one Error whose message is exactly "disk read failed". |
| `WorkerLifecycle.ConstructedWorkerReleasesAll` | napi-inl.h:2572-2673 | A constructed worker can be queued. Cancelled or completed, it releases its work item and both references exactly once. |
| `WorkerLifecycle.MovedWorkCallsBackSource` | napi-inl.h:2588-2596 | After a move, the work item stays registered with the moved-from object's address. If the host completes it, the moved-from object runs `OnOK`, and that calls through an empty callback reference. |
| `WorkerLifecycle.MoveAssignAsWrittenLeaksWork` | napi-inl.h:2598-2607 | As written, the target's old work item stays live in the host and neither worker holds it. |
| `WorkerLifecycle.MoveAssignReleasesOldWork` | napi-inl.h:2598-2607 | Corrected, the target's old work item is deleted exactly once. The source's moves over, and both workers stay valid. |

## Left out

- Threads and scheduling. The host's worker thread and main thread are not modelled. `WorkerLifecycle.Live` takes an already constructed worker and runs the phases in the order the host guarantees: cancellation or `OnExecute`, then `OnWorkComplete`. `WorkerLifecycle.ConstructedWorkerReleasesAll` puts construction and `Queue()` in front of it.
- What `Execute()`, `OnOK` and `OnError` compute. An overriding `Execute()` is a list of `SetError` calls and an exit. The handlers' own host effects are not modelled. The default handlers are described by the call they make (`Invocation`), not by what the script callback does.
- Destructor-time deletes. The status of `napi_delete_reference` in `~Reference()` and of `napi_delete_async_work` in `~AsyncWorker()` is ignored by the code, and the model treats both calls as succeeding.
- `HandleScope`. Only the status of opening it is modelled; closing it is not modelled.
- Debug-build asserts. `Error::New(env)` is modelled with `assert()` compiled out; a debug build would abort instead of leaving the error null.
- `Reference::Value()`, `operator napi_ref`, `operator==`/`!=`, `Env()`, `Receiver()`, `Callback()`, `CallbackInfo::Data()`/`SetData()`, `TypedArray::ByteOffset()` and the typed `TypedArrayOf<T>` wrappers: accessors with no ownership or error logic of their own.
- References.Ref: reference counts are unbounded naturals. Host-side `uint32_t` overflow of a count is not modelled.
- References.MoveAssign: stated for two distinct objects. Self-move-assignment, where the code's `Reset()` empties the very reference it then copies from, is `References.SelfMoveAssign`.
- AsyncWorkers.MoveAssign: self-move-assignment (`w = std::move(w)`) is not modelled, as written or corrected. As written it nulls `_env` and `_work`, leaving the work item registered with the host and owned by no one. Each reference member then self-move-assigns, which deletes its handle and leaves it empty, and `_error` is moved onto itself, which leaves it unspecified.
- TypedArrays.ArrayType: the `unknown_array_type` sentinel is modelled as an empty cache (`None`). Its numeric value is not part of this model, and the host is taken never to report it as an array's type.
- AsyncWorkers.Queue: with no work item (a moved-from worker), the host is assumed to answer `napi_invalid_arg`.
- AsyncWorkers.Cancel: with no work item, the host is assumed to answer `napi_invalid_arg`, as for `Queue`.
- AsyncWorkers.Construct: the members are taken to be declared in the order of the constructor's initializer list (napi-inl.h:2573-2575): `_env`, `_work`, `_receiver`, `_callback`, `_error`. C++ builds members in declaration order and destroys them in reverse. The declaration in `napi.h` (lines 814-854) does not settle this: it belongs to a different version of the class, with `_callback` declared before `_persistent`. Under that order a construction where both reference creates fail would throw the callback's status rather than the receiver's, and the unwinding order in `ConstructAsWritten` would change accordingly.
- AsyncWorkers.Construct: the worker's lifecycle (`Construct`, `Destroy`, `OnWorkComplete`, moves) is stated over the corrected references of the first row under "## Findings". `ConstructAsWritten` and `WorkerLifecycle.AsWrittenWorkerReadsUnwrittenFlag` show what the code as written does instead.
- AsyncWorkers.OnWorkComplete: when `OnError`'s Error cannot be built, the Error rethrown is that of the corrected `Error::New(env)`, which gives a TypeError for the four type-expectation statuses. As written (see "## Findings") it is always a plain Error. The same holds for `Errors.NewWithMessage` and `WorkerLifecycle.ErrorConstructionFailureIsRethrown`.
- AsyncWorkers.OnWorkComplete: the `napi_ref` that `Error(env, value)` (napi-inl.h:1410-1418) creates for the Error passed to `OnError`, and that the Error's destructors delete, is not modelled; the host state after completion covers only the worker's own handles.
- Errors.NewWithMessage: the returned Error's own `napi_ref` (napi-inl.h:1410-1418) is not modelled; the result records only the kind and message of the error object.
- Errors.NewFromEnv: stated for the code as evidently intended, with the error code read before `napi_create_string_utf8`. `NewFromEnvAsWritten` models the code as written. Both follow Node-API's documented rule that a successful call resets the last-error record; `napi_get_last_error_info` hands out a pointer to that record.
- AsyncWorkers.MoveConstruct: the moved-from `std::string` is modelled as empty. C++ leaves it valid but unspecified.

## Findings

| source | as written | input that shows it | evidently intended | confidence | as-written member | corrected member |
|---|---|---|---|---|---|---|
| napi-inl.h:1542-1563 | The `(env, ref)` constructor, used by `Reference::New`, and the move constructor never initialise `_suppressDestruct`. The destructor reads it at line 1549. Every `Persistent(Object)`/`Persistent(Function)` (1673-1679) goes through both, via `ObjectReference(Reference<Object>&&)` (1691-1693) or `FunctionReference(Reference<Function>&&)` (1815-1817). So do every `Error(env, value)` (1410, through `ObjectReference(env, ref)` at 1688) and hence every `AsyncWorker`, whose two members are `Persistent()` references. | `Reference<Object>::New(obj, 1)` on any non-null object, then destruction; or moving any non-empty reference; or constructing and deleting an `AsyncWorker` with a non-null receiver | Initialise the flag to `false`, as the default constructor does at line 1538 | high, not executed | `ReferenceLifetimes.NewAsWrittenDestroyReadsIndeterminate`, `ReferenceLifetimes.MoveAsWrittenDestroyReadsIndeterminate`, `AsyncWorkers.ConstructAsWritten`, `WorkerLifecycle.AsWrittenWorkerReadsUnwrittenFlag` | `References.New`, `References.MoveConstruct`, `ReferenceLifetimes.ReleasedExactlyOnce` |
| napi-inl.h:1894-1902 | When the second `napi_get_cb_info` fails, the constructor throws after `new napi_value[_argc]`. A C++ constructor that throws does not run its destructor, so the array is never freed. | A call with 7 arguments where the second `napi_get_cb_info` returns `napi_generic_failure` | Free `_dynamicArgs` before throwing | high, not executed | `CallbackInfos.ConstructAsWrittenLeaks` | `CallbackInfos.Construct`, `CallbackInfos.ConstructBalancesHeap` |
| napi-inl.h:2598-2607 | Move assignment overwrites `_work` without deleting the target's own work item, which stays registered with the host and is then owned by no one. | Move-assigning one constructed worker into another constructed worker | Delete the target's work item first, as the reference members' move assignment resets first | medium, not executed | `WorkerLifecycle.MoveAssignAsWrittenLeaksWork` | `AsyncWorkers.MoveAssign`, `WorkerLifecycle.MoveAssignReleasesOldWork` |
| napi-inl.h:1364-1390 | `Error::New(env)` keeps the pointer `info` into the host's last-error record, calls `napi_create_string_utf8` (1372), and only then switches on `info->error_code` (1380). That call succeeds and so resets the record to `napi_ok`, and the switch always takes the `default` branch. The TypeError branch (1381-1385) is unreachable. | `napi_get_value_string_utf8` on a number fails with `napi_string_expected`, then `Error::New(env)` | Copy the error code (or switch on it) before `napi_create_string_utf8`, so the four type-expectation statuses give a TypeError | medium, not executed | `Errors.NewFromEnvAsWritten`, `Errors.StringExpectedBecomesPlainError` | `Errors.NewFromEnv`, `Errors.NewFromEnvAsWrittenLosesTypeError`, `Errors.NewFromEnvFollowsRoute` |

=== FILE: async_worker.dfy ===
/** AsyncWorker: one unit of background work. The constructor registers a work
    item with the host, Queue and Cancel forward requests to the host, the host
    runs OnExecute off the main thread and then OnWorkComplete on it, and
    OnWorkComplete dispatches to OnOK or OnError and deletes the worker.

    The host's threads are not modelled: each phase is a function the host
    calls, in the order it guarantees. */
module AsyncWorkers {
  import opened Wrappers
  import opened Host
  import opened Errors
  import References

  type Reference = References.Reference

  /** An AsyncWorker: its address (which the host is handed as the context of
      the work item), its env, its work item (None for nullptr), the receiver
      and callback references, and the captured error ("" when none). */
  datatype Worker = Worker(
    id: WorkerId,
    env: Option<EnvId>,
    work: Option<Handle>,
    receiver: Reference,
    callback: Reference,
    error: string)

  /** `w` owns a live work item, and two distinct live references whose
      destructors will read a written flag. */
  ghost predicate Holds(w: Worker, h: Host) {
    && (w.work.Some? ==> w.work.value in h.works.live)
    && References.Owns(w.receiver, h) && References.Owns(w.callback, h)
    && References.Disjoint(w.receiver, w.callback)
    && w.receiver.suppress.Known? && w.callback.suppress.Known?
  }

  /** The host will call `w` itself back when its work item runs. */
  ghost predicate Registered(w: Worker, h: Host) {
    w.work.Some? && w.work.value in h.works.live && h.works.live[w.work.value] == w.id
  }

  /** Two workers share no work item and no reference. */
  predicate Separate(a: Worker, b: Worker) {
    && (a.work.Some? && b.work.Some? ==> a.work.value != b.work.value)
    && References.Disjoint(a.receiver, b.receiver) && References.Disjoint(a.receiver, b.callback)
    && References.Disjoint(a.callback, b.receiver) && References.Disjoint(a.callback, b.callback)
  }

  /** Neither destructor of the worker's references reads an unwritten flag. */
  predicate Defined(w: Worker) {
    References.Defined(w.receiver) && References.Defined(w.callback)
  }

  /** The statuses the host reports to the constructor's calls, in order. */
  datatype ConstructFaults = ConstructFaults(receiverRef: Status, callbackRef: Status, createWork: Status)

  /** A constructor's outcome: the new worker, or the status behind the Error it
      threw; the host's state either way. */
  datatype Construction = Constructed(worker: Worker, host: Host) | Threw(status: Status, host: Host)

  /** Destroys an already-built reference member while a constructor unwinds,
      then lets the exception with status `s` leave. None stands for the
      destructor reading a flag no constructor wrote. */
  function Unwind(s: Status, r: Reference, h: Host): (c: Option<Construction>)
    ensures References.Defined(r) ==> c == Some(Threw(s, References.Destroy(r, h)))
    ensures c.None? <==> !References.Defined(r)
  {
    match References.DestroyAsWritten(r, h)
    case ReadsIndeterminate => None
    case TornDown(h') => Some(Threw(s, h'))
  }

  /** AsyncWorker(receiver, callback) with the value the reference
      constructors leave in each reference's flag: `init`. It takes persistent
      references to both, then creates the work item with the worker's own
      address as its context. A failure throws, and the members built so far
      are destroyed in reverse order. None stands for one of those destructors
      reading a flag no constructor wrote. */
  function ConstructWith(id: WorkerId, receiver: References.Held, callback: References.Held, f: ConstructFaults,
                         h: Host, init: References.Flag): (c: Option<Construction>)
    ensures init.Known? ==> c.Some?
  {
    match References.NewWith(receiver, 1, f.receiverRef, h, init)
    case Failure(s) => Some(Threw(s, h))
    case Success((recv, h1)) =>
      match References.NewWith(callback, 1, f.callbackRef, h1, init)
      case Failure(s) => Unwind(s, recv, h1)
      case Success((cb, h2)) =>
        match CreateWork(h2, id, f.createWork)
        case Failed(s) =>
          (match References.DestroyAsWritten(cb, h2)
           case ReadsIndeterminate => None
           case TornDown(h3) => Unwind(s, recv, h3))
        case Succeeded(h3, work) => Some(Constructed(Worker(id, callback.env, Some(work), recv, cb, ""), h3))
  }

  /** AsyncWorker(receiver, callback) as written. Persistent(Object) and
      Persistent(Function) build their result with the (env, ref) constructor
      and hand it on through the move constructor, and neither writes the
      flag. So a worker with a non-null receiver or callback can be built but
      never destroyed without reading an unwritten flag. If the constructor
      throws after the receiver reference was made, unwinding already reads
      one. */
  function ConstructAsWritten(id: WorkerId, receiver: References.Held, callback: References.Held, f: ConstructFaults,
                              h: Host): (c: Option<Construction>)
    ensures f == ConstructFaults(Ok, Ok, Ok) ==> c.Some? && c.value.Constructed?
    ensures c.Some? && c.value.Constructed? ==>
      && c.value.worker.receiver.suppress.Indeterminate? && c.value.worker.callback.suppress.Indeterminate?
      && (Defined(c.value.worker) <==> receiver.value == Nil && callback.value == Nil)
    ensures receiver.value != Nil && f.receiverRef == Ok && ((callback.value != Nil && f.callbackRef != Ok) || f.createWork != Ok) ==>
      c.None?
  {
    ConstructWith(id, receiver, callback, f, h, References.Indeterminate)
  }

  /** AsyncWorker(receiver, callback) built on the corrected references, whose
      flags are initialised to false. It succeeds exactly when every host call
      it needs succeeds, and otherwise throws the status of the first that
      fails. */
  function Construct(id: WorkerId, receiver: References.Held, callback: References.Held, f: ConstructFaults, h: Host): (c: Construction)
    ensures c.Constructed? <==>
      && (receiver.value == Nil || f.receiverRef == Ok)
      && (callback.value == Nil || f.callbackRef == Ok)
      && f.createWork == Ok
    ensures c.Threw? ==>
      c.status == (if receiver.value != Nil && f.receiverRef != Ok then f.receiverRef
                   else if callback.value != Nil && f.callbackRef != Ok then f.callbackRef
                   else f.createWork)
    ensures c.Constructed? ==>
      var w := c.worker;
      && w.id == id && w.env == callback.env && w.error == ""
      && w.work == Some(h.works.next)
      && (w.receiver.ref.Some? <==> receiver.value != Nil)
      && (w.callback.ref.Some? <==> callback.value != Nil)
      && (w.receiver.ref.Some? ==> References.IsStrong(w.receiver, c.host))
      && (w.callback.ref.Some? ==> References.IsStrong(w.callback, c.host))
  {
    ConstructWith(id, receiver, callback, f, h, References.Known(false)).value
  }

  /** A constructed worker owns a fresh work item registered with its own
      address and two distinct strong references; a constructor that throws
      releases every reference it created and leaves no work item behind. */
  lemma ConstructKeepsHost(id: WorkerId, receiver: References.Held, callback: References.Held, f: ConstructFaults, h: Host)
    requires HostValid(h)
    ensures
      var c := Construct(id, receiver, callback, f, h);
      && HostValid(c.host)
      && (c.Constructed? ==> Holds(c.worker, c.host) && Registered(c.worker, c.host) && Defined(c.worker))
      && (c.Threw? ==> c.host.refs.live == h.refs.live && c.host.works == h.works)
  {
    var r1 := References.New(receiver, 1, f.receiverRef, h);
    if r1.Success? {
      var (recv, h1) := r1.value;
      var r2 := References.New(callback, 1, f.callbackRef, h1);
      if r2.Failure? {
        assert References.Destroy(recv, h1).refs.live == h.refs.live;
      } else {
        var (cb, h2) := r2.value;
        assert References.Owns(recv, h2) && References.Disjoint(recv, cb);
        if f.createWork == Ok {
          WorkItemRegistered(id, callback.env, recv, cb, h2);
        } else {
          CreateWorkFailureUnwinds(recv, h1, cb, h2);
        }
      }
    }
  }

  /** Registering the work item for two owned, distinct references gives a
      worker that holds its handles and that the host will call back. */
  lemma WorkItemRegistered(id: WorkerId, env: Option<EnvId>, recv: Reference, cb: Reference, h: Host)
    requires HostValid(h) && References.Owns(recv, h) && References.Owns(cb, h) && References.Disjoint(recv, cb)
    requires recv.suppress.Known? && cb.suppress.Known?
    ensures
      var (t, x) := Insert(h.works, id);
      var w := Worker(id, env, Some(x), recv, cb, "");
      && HostValid(h.(works := t)) && Holds(w, h.(works := t)) && Registered(w, h.(works := t)) && Defined(w)
  {
    InsertValid(h.works, id);
  }

  /** Unwinding after napi_create_async_work fails gives back both references. */
  lemma CreateWorkFailureUnwinds(recv: Reference, h1: Host, cb: Reference, h2: Host)
    requires HostValid(h1) && References.Owns(recv, h1) && recv.suppress == References.Known(false)
    requires cb.suppress == References.Known(false) && HostValid(h2) && References.Owns(cb, h2)
    requires h2.works == h1.works && h2.refs.released == h1.refs.released
    requires cb.ref.None? ==> h2 == h1
    requires cb.ref.Some? ==> cb.ref.value !in h1.refs.live && h2.refs.live == h1.refs.live[cb.ref.value := 1]
    ensures
      var h3 := References.Destroy(recv, References.Destroy(cb, h2));
      && HostValid(h3) && h3.works == h1.works
      && h3.refs.live == References.Destroy(recv, h1).refs.live
  {
    var h3 := References.Destroy(cb, h2);
    assert h3.refs.live == h1.refs.live;
  }

  /** AsyncWorker(callback): as above, with a new empty object as the receiver;
      creating that object can itself throw. */
  function ConstructForCallback(id: WorkerId, callback: References.Held, objectStatus: Status, made: Value,
                                f: ConstructFaults, h: Host): (c: Construction)
    requires made != Nil
    ensures objectStatus != Ok ==> c == Threw(objectStatus, h)
    ensures objectStatus == Ok ==> c == Construct(id, References.Held(callback.env, made), callback, f, h)
    ensures c.Constructed? ==> c.worker.receiver.ref.Some?
  {
    if objectStatus != Ok then Threw(objectStatus, h)
    else Construct(id, References.Held(callback.env, made), callback, f, h)
  }

  /** ~AsyncWorker() and the member destructors after it: deletes the work item
      if there is one, then destroys the callback and receiver references.
      Every handle the worker owned is released exactly once. */
  function Destroy(w: Worker, h: Host): (h': Host)
    requires Defined(w)
    ensures w.work.Some? ==>
      w.work.value !in h'.works.live && h'.works.released == h.works.released + multiset{w.work.value}
    ensures w.work.None? ==> h'.works == h.works
    ensures HostValid(h) && Holds(w, h) ==> HostValid(h')
    ensures HostValid(h) && Holds(w, h) && w.receiver.ref.Some? && !w.receiver.suppress.suppressed ==>
      w.receiver.ref.value !in h'.refs.live && h'.refs.released[w.receiver.ref.value] == 1
    ensures HostValid(h) && Holds(w, h) && w.callback.ref.Some? && !w.callback.suppress.suppressed ==>
      w.callback.ref.value !in h'.refs.live && h'.refs.released[w.callback.ref.value] == 1
  {
    var h1 := if w.work.Some? then DeleteWork(h, w.work.value) else h;
    References.Destroy(w.receiver, References.Destroy(w.callback, h1))
  }

  /** Queue(): asks the host to schedule the work; a host failure throws. The
      worker itself does not change. */
  function Queue(w: Worker, fault: Status): (thrown: Option<Status>)
    ensures thrown.None? <==> fault == Ok && w.work.Some?
    ensures thrown.Some? && fault != Ok ==> thrown.value == fault
  {
    if fault != Ok then Some(fault)
    else if w.work.None? then Some(InvalidArg)
    else None
  }

  /** Cancel(): asks the host to drop the work before it starts; a host failure
      (for instance, the work has already started) throws. */
  function Cancel(w: Worker, fault: Status): (thrown: Option<Status>)
    ensures thrown.None? <==> fault == Ok && w.work.Some?
    ensures thrown.Some? && fault != Ok ==> thrown.value == fault
  {
    if fault != Ok then Some(fault)
    else if w.work.None? then Some(InvalidArg)
    else None
  }

  /** SetError(error): replaces the captured error. */
  function SetError(w: Worker, error: string): (w': Worker)
    ensures w'.error == error && w' == w.(error := error)
  {
    w.(error := error)
  }

  /** How the overriding Execute() leaves: normally, by a std::exception
      (Napi::Error is one) with its what() text, or by anything else. */
  datatype ExecExit = Returned | ThrewStd(what: string) | ThrewOther

  /** What the overriding Execute() does to the worker: the SetError calls it
      makes, in order, and how it leaves. */
  datatype Body = Body(sets: seq<string>, exit: ExecExit)

  /** The SetError calls of a body, applied in order. */
  function ApplySets(w: Worker, sets: seq<string>): (w': Worker)
    decreases |sets|
  {
    if |sets| == 0 then w else ApplySets(SetError(w, sets[0]), sets[1..])
  }

  /** The SetError calls change only the error, and the last one wins. */
  lemma {:induction false} ApplySetsLastWins(w: Worker, sets: seq<string>)
    ensures ApplySets(w, sets) == w.(error := if |sets| == 0 then w.error else sets[|sets| - 1])
    decreases |sets|
  {
    if |sets| > 0 {
      ApplySetsLastWins(SetError(w, sets[0]), sets[1..]);
    }
  }

  /** The off-thread phase's outcome: the worker afterwards, or an exception
      that is not a std::exception escaping onto the host's worker thread. */
  datatype Executed = Executed(worker: Worker) | ExecuteEscaped

  /** OnExecute: runs Execute() and turns a std::exception into the captured
      error `e.what()`; a normal return leaves the error as Execute left it. */
  function OnExecute(w: Worker, body: Body): (e: Executed)
    ensures e.Executed? <==> !body.exit.ThrewOther?
    ensures body.exit.ThrewStd? ==> e.worker == w.(error := body.exit.what)
    ensures body.exit.Returned? ==>
      e.worker == w.(error := if |body.sets| == 0 then w.error else body.sets[|body.sets| - 1])
  {
    ApplySetsLastWins(w, body.sets);
    var w1 := ApplySets(w, body.sets);
    match body.exit
    case Returned => Executed(w1)
    case ThrewStd(what) => Executed(SetError(w1, what))
    case ThrewOther => ExecuteEscaped
  }

  /** Which handler the on-thread phase ran, with the error OnError received. */
  datatype Handler = NoHandler | RanOnOK | RanOnError(error: ErrorValue)

  /** How the overriding OnOK/OnError leaves: normally, by a Napi::Error, or
      by any other exception. */
  datatype HandlerExit = HandlerReturned | HandlerThrewError(error: ErrorValue) | HandlerThrewOther

  /** The host's side of the on-thread phase: the status it passes
      (napi_cancelled or not), the status of opening the handle scope, the
      replies Error::New(env, error) gets, how the handler leaves, and whether
      rethrowing a Napi::Error as a script exception succeeds. */
  datatype CompleteInputs = CompleteInputs(
    status: Status,
    scopeStatus: Status,
    stringStatus: Status,
    createStatus: Status,
    query: ErrorQuery,
    exit: HandlerExit,
    throwStatus: Status)

  /** The on-thread phase's outcome: it finished and deleted the worker,
      possibly leaving a script exception pending; or an exception escaped the
      callback before `delete self`. */
  datatype Completion =
    | Completed(handler: Handler, jsThrow: Option<ErrorValue>, host: Host)
    | Escaped(handler: Handler)

  /** OnWorkComplete. Cancelled: no handler, the worker is deleted. Otherwise,
      inside a handle scope, OnOK runs when the captured error is empty and
      OnError runs with an Error built from exactly that text when it is not;
      a Napi::Error thrown on the way is rethrown as a script exception; and
      the worker is deleted. */
  function OnWorkComplete(w: Worker, h: Host, c: CompleteInputs): (r: Completion)
    requires Defined(w)
    ensures c.status == Cancelled ==> r == Completed(NoHandler, None, Destroy(w, h))
    ensures c.status != Cancelled && c.scopeStatus != Ok ==> r == Escaped(NoHandler)
    ensures c.status != Cancelled && c.scopeStatus == Ok ==>
      && (r.handler == RanOnOK <==> w.error == "")
      && (r.handler.RanOnError? <==> w.error != "" && c.stringStatus == Ok && c.createStatus == Ok)
      && (r.handler.RanOnError? ==> r.handler.error == Built(PlainError, w.error))
    ensures r.Completed? ==> r.host == Destroy(w, h)
    ensures r.Completed? && r.jsThrow.Some? ==> r.jsThrow.value != NoValue
    ensures c.status != Cancelled && c.scopeStatus == Ok && r.handler != NoHandler ==>
      match c.exit
      case HandlerReturned => r == Completed(r.handler, None, Destroy(w, h))
      case HandlerThrewError(e) =>
        r == (if c.throwStatus == Ok then Completed(r.handler, if e == NoValue then None else Some(e), Destroy(w, h))
              else Escaped(r.handler))
      case HandlerThrewOther => r == Escaped(r.handler)
  {
    if c.status == Cancelled then Completed(NoHandler, None, Destroy(w, h))
    else if c.scopeStatus != Ok then Escaped(NoHandler)
    else
      var (handler, exit) :=
        if |w.error| == 0 then (RanOnOK, c.exit)
        else
          match NewWithMessage(w.error, c.stringStatus, c.createStatus, c.query)
          case Success(e) => (RanOnError(e), c.exit)
          case Failure(e) => (NoHandler, HandlerThrewError(e));
      match exit
      case HandlerReturned => Completed(handler, None, Destroy(w, h))
      case HandlerThrewError(e) =>
        if c.throwStatus != Ok then Escaped(handler)
        else Completed(handler, if e == NoValue then None else Some(e), Destroy(w, h))
      case HandlerThrewOther => Escaped(handler)
  }

  /** A call of the callback function: the function and receiver references
      it goes through and the arguments. */
  datatype Invocation = Invocation(target: Option<Handle>, receiver: Option<Handle>, args: seq<ErrorValue>)

  /** What the default OnOK and OnError do: call the callback on the receiver
      with no arguments, or with the error as the only argument. */
  function DefaultInvocation(w: Worker, handler: Handler): (i: Option<Invocation>)
    ensures i.None? <==> handler.NoHandler?
    ensures i.Some? ==> i.value.target == w.callback.ref && i.value.receiver == w.receiver.ref
    ensures handler.RanOnOK? ==> i.value.args == []
    ensures handler.RanOnError? ==> i.value.args == [handler.error]
  {
    match handler
    case NoHandler => None
    case RanOnOK => Some(Invocation(w.callback.ref, w.receiver.ref, []))
    case RanOnError(e) => Some(Invocation(w.callback.ref, w.receiver.ref, [e]))
  }

  /** AsyncWorker(AsyncWorker&&): the new object takes over the env, work item,
      references and error; the source keeps nothing. The new object's
      references start empty and are move-assigned, so their flags are written. */
  function MoveConstruct(src: Worker, id: WorkerId, h: Host): (p: (Worker, Worker))
    ensures p.0.id == id && p.0.env == src.env && p.0.work == src.work && p.0.error == src.error
    ensures p.0.receiver.ref == src.receiver.ref && p.0.callback.ref == src.callback.ref
    ensures p.1.id == src.id && p.1.env.None? && p.1.work.None?
    ensures p.1.receiver.ref.None? && p.1.callback.ref.None?
    ensures Holds(src, h) ==> Holds(p.0, h) && Holds(p.1, h) && Separate(p.0, p.1) && Defined(p.0) && Defined(p.1)
  {
    var r := References.MoveAssign(References.Empty(), src.receiver, h, Ok);
    var c := References.MoveAssign(References.Empty(), src.callback, h, Ok);
    (Worker(id, src.env, src.work, r.state.0, c.state.0, src.error),
     Worker(src.id, None, None, r.state.1, c.state.1, ""))
  }

  /** operator=(AsyncWorker&&), with or without deleting the target's own work
      item before taking over the source's. Env and work item move first; the
      receiver and then the callback are move-assigned, each of which resets
      the target's reference and may throw part-way; the error moves last. */
  function MoveAssignWith(dst: Worker, src: Worker, h: Host, receiverFault: Status, callbackFault: Status,
                          deleteOld: bool): (s: Step<(Worker, Worker)>)
  {
    var h0 := if deleteOld && dst.work.Some? then DeleteWork(h, dst.work.value) else h;
    var d1 := dst.(env := src.env, work := src.work);
    var s1 := src.(env := None, work := None);
    var rs := References.MoveAssign(d1.receiver, s1.receiver, h0, receiverFault);
    if rs.thrown.Some? then Step((d1, s1), rs.host, rs.thrown)
    else
      var d2 := d1.(receiver := rs.state.0);
      var s2 := s1.(receiver := rs.state.1);
      var cs := References.MoveAssign(d2.callback, s2.callback, rs.host, callbackFault);
      if cs.thrown.Some? then Step((d2, s2), cs.host, cs.thrown)
      else Step((d2.(callback := cs.state.0, error := s2.error), s2.(callback := cs.state.1, error := "")), cs.host, None)
  }

  /** operator=(AsyncWorker&&) as written: the target's work item is overwritten
      without being deleted. */
  function MoveAssignAsWritten(dst: Worker, src: Worker, h: Host, receiverFault: Status, callbackFault: Status): (s: Step<(Worker, Worker)>)
    ensures s.host.works == h.works
    ensures s.state.0.work == src.work && s.state.1.work.None?
  {
    MoveAssignWith(dst, src, h, receiverFault, callbackFault, false)
  }

  /** operator=(AsyncWorker&&) deleting the target's work item first, as the
      reference members' move assignment resets first. Whatever the host
      reports, the target's old work item is deleted, the source's work item
      changes hands, and no handle is owned twice. */
  function MoveAssign(dst: Worker, src: Worker, h: Host, receiverFault: Status, callbackFault: Status): (s: Step<(Worker, Worker)>)
    ensures s.state.0.work == src.work && s.state.1.work.None?
    ensures dst.work.Some? ==>
      dst.work.value !in s.host.works.live && s.host.works.released == h.works.released + multiset{dst.work.value}
    ensures s.thrown.None? <==>
      (dst.receiver.ref.None? || receiverFault == Ok) && (dst.callback.ref.None? || callbackFault == Ok)
    ensures s.thrown.None? ==>
      && s.state.0.receiver.ref == src.receiver.ref && s.state.0.callback.ref == src.callback.ref
      && s.state.1.receiver.ref.None? && s.state.1.callback.ref.None?
      && s.state.0.error == src.error
    ensures HostValid(h) && Holds(dst, h) && Holds(src, h) && Separate(dst, src) ==>
      HostValid(s.host) && Holds(s.state.0, s.host) && Holds(s.state.1, s.host) && Separate(s.state.0, s.state.1)
  {
    MoveAssignWith(dst, src, h, receiverFault, callbackFault, true)
  }
}

=== FILE: callback_info.dfy ===
/** CallbackInfo: the arguments of a call from script into native code, copied
    out of the host into six inline slots, or into a heap array when there are
    more than six. */
module CallbackInfos {
  import opened Wrappers
  import opened Host

  /** The number of inline argument slots. */
  const StaticArgCount: nat := 6

  /** Where the argument values live: the inline slots or a heap array. */
  datatype Storage = Inline(slots: seq<Value>) | Dynamic(slots: seq<Value>)

  /** A CallbackInfo: the argument count the host reported, the argument
      storage, and the receiver (`this`). */
  datatype CallbackInfo = CallbackInfo(argc: nat, argv: Storage, receiver: Value)

  /** The call as the host sees it: the actual arguments and receiver. */
  datatype CallSite = CallSite(args: seq<Value>, receiver: Value)

  /** What the constructor leaves behind: a CallbackInfo, or the status behind
      the Error it threw together with the heap arrays it allocated and freed. */
  datatype Construction =
    | Constructed(info: CallbackInfo)
    | Threw(status: Status, allocations: nat, frees: nat)

  /** The constructor's invariant: the storage holds exactly `argc` values, in
      the inline slots when they fit and on the heap otherwise. */
  predicate Valid(ci: CallbackInfo) {
    && |ci.argv.slots| == ci.argc
    && (ci.argv.Inline? <==> ci.argc <= StaticArgCount)
  }

  /** The constructor. The first napi_get_cb_info, given room for six values,
      copies as many as fit and reports the true count; when that exceeds six a
      heap array of that size is allocated and a second napi_get_cb_info fills
      it. `freeOnThrow` says whether a failure of the second call frees the
      array before the exception leaves. */
  function ConstructWith(site: CallSite, first: Status, second: Status, freeOnThrow: bool): (c: Construction)
  {
    if first != Ok then Threw(first, 0, 0)
    else if |site.args| <= StaticArgCount then
      Constructed(CallbackInfo(|site.args|, Inline(site.args), site.receiver))
    else if second != Ok then Threw(second, 1, if freeOnThrow then 1 else 0)
    else Constructed(CallbackInfo(|site.args|, Dynamic(site.args), site.receiver))
  }

  /** The constructor as written: a C++ constructor that throws never runs its
      destructor, so the heap array of a failed second call is never freed. */
  function ConstructAsWritten(site: CallSite, first: Status, second: Status): (c: Construction)
    ensures c.Threw? ==> c.frees == 0
  {
    ConstructWith(site, first, second, false)
  }

  /** The constructor with the heap array freed before a failure of the second
      call is thrown. It succeeds exactly when the host calls it needs succeed,
      and the CallbackInfo it builds holds exactly the call's arguments, on the
      heap exactly when there are more than six. */
  function Construct(site: CallSite, first: Status, second: Status): (c: Construction)
    ensures c.Constructed? <==> first == Ok && (|site.args| <= StaticArgCount || second == Ok)
    ensures c.Threw? ==> c.status == (if first != Ok then first else second)
    ensures c.Threw? ==> c.allocations == c.frees
    ensures c.Constructed? ==>
      && Valid(c.info)
      && c.info.argc == |site.args|
      && c.info.argv.slots == site.args
      && c.info.receiver == site.receiver
      && (c.info.argv.Dynamic? <==> |site.args| > StaticArgCount)
  {
    ConstructWith(site, first, second, true)
  }

  /** ~CallbackInfo(): the number of heap arrays it frees. */
  function Destroy(ci: CallbackInfo): (freed: nat)
    ensures freed == 1 <==> ci.argv.Dynamic?
    ensures freed <= 1
  {
    if ci.argv.Dynamic? then 1 else 0
  }

  /** Length(): the number of arguments the call was given. */
  function Length(ci: CallbackInfo): (n: nat)
    ensures Valid(ci) ==> n == |ci.argv.slots|
  {
    ci.argc
  }

  /** operator[](index): the argument at `index`, or `undefined` past the end. */
  function At(ci: CallbackInfo, index: nat): (v: Value)
    requires Valid(ci)
    ensures index < Length(ci) ==> v == ci.argv.slots[index]
    ensures index >= Length(ci) ==> v == Undefined
    ensures v in ci.argv.slots || v == Undefined
  {
    if index < ci.argc then ci.argv.slots[index] else Undefined
  }

  /** This(): the receiver, or `undefined` when the host gave none. */
  function This(ci: CallbackInfo): (v: Value)
    ensures ci.receiver != Nil ==> v == ci.receiver
    ensures ci.receiver == Nil ==> v == Undefined
  {
    if ci.receiver == Nil then Undefined else ci.receiver
  }

  /** Indexing a constructed CallbackInfo reads back the call's arguments, and
      any index at or past Length() reads as `undefined`, however many
      arguments there were. */
  lemma AtReadsArguments(site: CallSite, second: Status, index: nat)
    requires Construct(site, Ok, second).Constructed?
    ensures
      var ci := Construct(site, Ok, second).info;
      && Length(ci) == |site.args|
      && At(ci, index) == (if index < |site.args| then site.args[index] else Undefined)
  {
  }

  /** This() on a constructed CallbackInfo is the call's receiver, or
      `undefined` when the host gave none; it is never the null value. */
  lemma ThisReadsReceiver(site: CallSite, second: Status)
    requires Construct(site, Ok, second).Constructed?
    ensures
      var v := This(Construct(site, Ok, second).info);
      && v != Nil
      && (site.receiver != Nil ==> v == site.receiver)
      && (site.receiver == Nil ==> v == Undefined)
  {
  }

  /** Every heap array the corrected constructor allocates is freed exactly
      once: by the destructor of the object it builds, or before it throws. */
  lemma ConstructBalancesHeap(site: CallSite, first: Status, second: Status)
    ensures
      var expected := if first == Ok && |site.args| > StaticArgCount then 1 else 0;
      match Construct(site, first, second)
      case Constructed(ci) => Destroy(ci) == expected
      case Threw(_, a, f) => a == expected && f == expected
  {
  }

  /** The constructor as written leaks: seven arguments and a failing second
      napi_get_cb_info leave a heap array that nothing frees. */
  lemma ConstructAsWrittenLeaks(site: CallSite)
    requires |site.args| == 7
    ensures ConstructAsWritten(site, Ok, GenericFailure) == Threw(GenericFailure, 1, 0)
  {
  }
}

=== FILE: errors.dfy ===
/** Error::New: turning the host's report of a failed call into the error object
    the wrapper throws. */
module Errors {
  import opened Wrappers
  import opened Host

  /** The message used when the host reports no message of its own. */
  const DefaultMessage: string := "Error in native callback"

  /** napi_extended_error_info as far as Error::New reads it: the status of the
      last failing call and its message (None for a null char pointer). */
  datatype LastError = LastError(code: Status, message: Option<string>)

  /** The host's replies to the calls Error::New(env) makes, in call order:
      napi_get_last_error_info, napi_get_and_clear_last_exception (and the
      exception it returns), napi_create_string_utf8, and the error constructor. */
  datatype ErrorQuery = ErrorQuery(
    infoStatus: Status,
    info: LastError,
    clearStatus: Status,
    exception: Value,
    stringStatus: Status,
    createStatus: Status)

  /** Which host constructor built an error object. */
  datatype ErrorKind = TypeError | PlainError

  /** The napi_value an Error ends up wrapping: none at all (null), the pending
      exception that was taken from the host, or a freshly built error object. */
  datatype ErrorValue = NoValue | Caught(exception: Value) | Built(kind: ErrorKind, message: string)

  /** The three ways Error::New(env) can go for a given last-error code. */
  datatype Route = TakePending | MakeTypeError | MakePlainError

  /** The codes that report a value of the wrong type. */
  const TypeCodes: set<Status> := {ObjectExpected, StringExpected, BooleanExpected, NumberExpected}

  /** The branch Error::New(env) takes on the last error code. */
  function RouteOf(code: Status): (r: Route)
    ensures r == TakePending <==> code == PendingException
    ensures r == MakeTypeError <==> code in TypeCodes
  {
    match code
    case PendingException => TakePending
    case ObjectExpected => MakeTypeError
    case StringExpected => MakeTypeError
    case BooleanExpected => MakeTypeError
    case NumberExpected => MakeTypeError
    case _ => MakePlainError
  }

  /** The classification is exactly: a pending exception is taken, the four
      type-expectation codes give a TypeError, and every other code a plain Error. */
  lemma RouteOfClassifies(code: Status)
    ensures RouteOf(code) == TakePending <==> code == PendingException
    ensures RouteOf(code) == MakeTypeError <==> code in TypeCodes
    ensures RouteOf(code) == MakePlainError <==> code != PendingException && code !in TypeCodes
  {
  }

  /** The message of a built error: the host's own, or the default when the
      host gave a null pointer. */
  function MessageOf(info: LastError): (m: string)
    ensures info.message.Some? ==> m == info.message.value
    ensures info.message.None? ==> m == DefaultMessage && |m| > 0
  {
    info.message.GetOr(DefaultMessage)
  }

  /** The code the host's last-error record holds after a call that succeeded:
      every host call that succeeds clears the record to napi_ok. */
  const ClearedCode: Status := Ok

  /** Error::New(env) as written, with assert() compiled out (a release build).
      `info` points at the host's live record: the code is read once to choose
      between the pending exception and a new error, and read again by the
      switch after napi_create_string_utf8 has succeeded and cleared it. */
  function NewFromEnvAsWritten(q: ErrorQuery): (e: ErrorValue)
    ensures q.infoStatus != Ok ==> e == NoValue
    ensures e.Caught? <==>
      q.infoStatus == Ok && q.info.code == PendingException && q.clearStatus == Ok
    ensures e.Built? <==>
      q.infoStatus == Ok && q.info.code != PendingException && q.stringStatus == Ok && q.createStatus == Ok
    ensures e.Built? ==> e == Built(PlainError, MessageOf(q.info))
  {
    if q.infoStatus != Ok then NoValue
    else if RouteOf(q.info.code) == TakePending then
      if q.clearStatus == Ok then Caught(q.exception) else NoValue
    else if q.stringStatus != Ok then NoValue
    else
      var kind := if RouteOf(ClearedCode) == MakeTypeError then TypeError else PlainError;
      if q.createStatus == Ok then Built(kind, MessageOf(q.info)) else NoValue
  }

  /** Error::New(env) with the code copied before any further host call, and
      assert() compiled out: every host call whose status is not ok leaves the
      error value null. */
  function NewFromEnv(q: ErrorQuery): (e: ErrorValue)
    ensures q.infoStatus != Ok ==> e == NoValue
    ensures e.Caught? <==>
      q.infoStatus == Ok && q.info.code == PendingException && q.clearStatus == Ok
    ensures e.Caught? ==> e.exception == q.exception
    ensures e.Built? <==>
      q.infoStatus == Ok && q.info.code != PendingException && q.stringStatus == Ok && q.createStatus == Ok
    ensures e.Built? ==> e.message == MessageOf(q.info) && (e.kind == TypeError <==> q.info.code in TypeCodes)
  {
    if q.infoStatus != Ok then NoValue
    else
      match RouteOf(q.info.code)
      case TakePending =>
        if q.clearStatus == Ok then Caught(q.exception) else NoValue
      case MakeTypeError =>
        if q.stringStatus == Ok && q.createStatus == Ok then Built(TypeError, MessageOf(q.info)) else NoValue
      case MakePlainError =>
        if q.stringStatus == Ok && q.createStatus == Ok then Built(PlainError, MessageOf(q.info)) else NoValue
  }

  /** As written, the TypeError branch is unreachable: a report of a value of
      the wrong type yields a plain Error where the copied code yields a
      TypeError. On every other code the two agree. */
  lemma NewFromEnvAsWrittenLosesTypeError(q: ErrorQuery)
    ensures NewFromEnvAsWritten(q).Built? ==> NewFromEnvAsWritten(q).kind == PlainError
    ensures HostCooperates(q) && q.info.code in TypeCodes ==>
      && NewFromEnvAsWritten(q) == Built(PlainError, MessageOf(q.info))
      && NewFromEnv(q) == Built(TypeError, MessageOf(q.info))
    ensures q.info.code !in TypeCodes ==> NewFromEnvAsWritten(q) == NewFromEnv(q)
  {
    RouteOfClassifies(q.info.code);
  }

  /** The concrete case: the host reports napi_string_expected with no message. */
  lemma StringExpectedBecomesPlainError()
    ensures
      var q := ErrorQuery(Ok, LastError(StringExpected, None), Ok, Nil, Ok, Ok);
      && NewFromEnvAsWritten(q) == Built(PlainError, DefaultMessage)
      && NewFromEnv(q) == Built(TypeError, DefaultMessage)
  {
  }

  /** A query in which every host call succeeds. */
  predicate HostCooperates(q: ErrorQuery) {
    q.infoStatus == Ok && q.clearStatus == Ok && q.stringStatus == Ok && q.createStatus == Ok
  }

  /** When the host cooperates, Error::New(env) follows its route exactly: the
      pending exception is taken as is, and otherwise an error of the route's
      kind is built whose message is the host's or the default one. */
  lemma NewFromEnvFollowsRoute(q: ErrorQuery)
    requires HostCooperates(q)
    ensures RouteOf(q.info.code) == TakePending ==> NewFromEnv(q) == Caught(q.exception)
    ensures RouteOf(q.info.code) == MakeTypeError ==> NewFromEnv(q) == Built(TypeError, MessageOf(q.info))
    ensures RouteOf(q.info.code) == MakePlainError ==> NewFromEnv(q) == Built(PlainError, MessageOf(q.info))
  {
  }

  /** The status of the first of Error::New(env, message)'s two host calls
      that fails. */
  function FailingStatus(stringStatus: Status, createStatus: Status): Status {
    if stringStatus != Ok then stringStatus else createStatus
  }

  /** Error::New(env, message): builds a plain Error carrying exactly `message`.
      If either host call fails it throws Error::New(env), which finds that
      call's status recorded as the last error; `q` gives the host's other
      replies to that inner Error::New(env). */
  function NewWithMessage(message: string, stringStatus: Status, createStatus: Status, q: ErrorQuery): (r: Result<ErrorValue, ErrorValue>)
    ensures r.Success? <==> stringStatus == Ok && createStatus == Ok
    ensures r.Success? ==> r.value == Built(PlainError, message)
    ensures r.Failure? ==> r.error == NewFromEnv(q.(info := q.info.(code := FailingStatus(stringStatus, createStatus))))
  {
    if stringStatus != Ok then Failure(NewFromEnv(q.(info := q.info.(code := stringStatus))))
    else if createStatus != Ok then Failure(NewFromEnv(q.(info := q.info.(code := createStatus))))
    else Success(Built(PlainError, message))
  }

  /** When Error::New(env, message) throws, the Error is classified by the
      status of the call that failed: it is the pending exception exactly when
      that status is napi_pending_exception, and otherwise an error of the
      status's kind with the host's message. */
  lemma NewWithMessageThrowsByFailingStatus(message: string, stringStatus: Status, createStatus: Status, q: ErrorQuery)
    requires HostCooperates(q) && !(stringStatus == Ok && createStatus == Ok)
    ensures
      var failing := FailingStatus(stringStatus, createStatus);
      var r := NewWithMessage(message, stringStatus, createStatus, q);
      && r.Failure? && failing != Ok
      && (r.error.Caught? <==> failing == PendingException)
      && (failing != PendingException ==>
            r.error == Built(if failing in TypeCodes then TypeError else PlainError, MessageOf(q.info)))
  {
  }
}

=== FILE: host.dfy ===
/** The host runtime on the far side of the N-API boundary, reduced to what the
    wrapper layer can observe: status codes, opaque values, and tables of the
    handles the host has handed out. */
module Host {
  import opened Wrappers

  /** napi_status, the result code of every host call. */
  datatype Status =
    | Ok
    | InvalidArg
    | ObjectExpected
    | StringExpected
    | NameExpected
    | FunctionExpected
    | NumberExpected
    | BooleanExpected
    | ArrayExpected
    | GenericFailure
    | PendingException
    | Cancelled

  /** An opaque host handle (napi_ref, napi_async_work, ...). */
  type Handle = nat

  /** An opaque napi_env. */
  type EnvId = nat

  /** The address of an AsyncWorker object, which the host keeps as the
      context pointer of the work it runs. */
  type WorkerId = nat

  /** A napi_value: the C null pointer, the host's `undefined`, or any other value. */
  datatype Value = Nil | Undefined | Val(id: nat)

  /** A host table of handles: the live ones with their payload, the next handle
      the host will hand out (handles are never reused), and one entry in
      `released` per delete call the host has received for a handle. */
  datatype Table<V> = Table(live: map<Handle, V>, next: Handle, released: multiset<Handle>)

  /** Every live or released handle was handed out, no released handle is live,
      and no handle was deleted twice. */
  ghost predicate Valid<V>(t: Table<V>) {
    && (forall x :: x in t.live ==> x < t.next)
    && (forall x :: x in t.released ==> x < t.next && x !in t.live)
    && (forall x :: t.released[x] <= 1)
  }

  /** Hands out a fresh handle carrying `v`. */
  function Insert<V>(t: Table<V>, v: V): (r: (Table<V>, Handle))
    ensures r.1 == t.next && r.0.next == t.next + 1
    ensures r.0.live == t.live[t.next := v] && r.0.released == t.released
  {
    (Table(t.live[t.next := v], t.next + 1, t.released), t.next)
  }

  /** Records one delete call for `x`; `x` is no longer live afterwards. */
  function Remove<V>(t: Table<V>, x: Handle): (r: Table<V>)
    ensures r.live == t.live - {x} && r.next == t.next
    ensures r.released == t.released + multiset{x}
  {
    Table(t.live - {x}, t.next, t.released + multiset{x})
  }

  /** Inserting keeps a valid table valid, and the new handle was never seen before. */
  lemma InsertValid<V>(t: Table<V>, v: V)
    requires Valid(t)
    ensures Valid(Insert(t, v).0)
    ensures t.next !in t.live && t.released[t.next] == 0
  {
  }

  /** The host's whole state as far as this model goes: references with their
      refcounts, and async work items with the worker they call back. */
  datatype Host = Host(refs: Table<nat>, works: Table<WorkerId>)

  ghost predicate HostValid(h: Host) {
    Valid(h.refs) && Valid(h.works)
  }

  /** The result of a host call the wrapper checks: it either succeeded, with
      the host's new state and an output, or failed with a non-ok status. */
  datatype Call<T> = Succeeded(host: Host, out: T) | Failed(status: Status)

  /** The result of a wrapper operation that mutates an object and may throw
      part-way: the object's state and the host's state when control leaves
      the operation, and the failing status behind the `Error` it threw, if any. */
  datatype Step<S> = Step(state: S, host: Host, thrown: Option<Status>)

  /** napi_create_reference; `fault` is the status the host reports. */
  function CreateReference(h: Host, count: nat, fault: Status): (c: Call<Handle>)
    ensures c.Succeeded? <==> fault == Ok
    ensures c.Failed? ==> c.status == fault
    ensures c.Succeeded? ==> c.out == h.refs.next && c.host == h.(refs := Insert(h.refs, count).0)
  {
    if fault != Ok then Failed(fault)
    else
      var (t, x) := Insert(h.refs, count);
      Succeeded(h.(refs := t), x)
  }

  /** napi_delete_reference; every call the host accepts is logged, so deleting a
      dead reference shows up as a second entry in `released`. */
  function DeleteReference(h: Host, x: Handle, fault: Status): (c: Call<()>)
    ensures c.Succeeded? <==> fault == Ok
    ensures c.Failed? ==> c.status == fault
    ensures c.Succeeded? ==> c.host == h.(refs := Remove(h.refs, x))
  {
    if fault != Ok then Failed(fault) else Succeeded(h.(refs := Remove(h.refs, x)), ())
  }

  /** napi_reference_ref: raises the count of a live reference and returns it. */
  function ReferenceRef(h: Host, x: Handle, fault: Status): (c: Call<nat>)
    ensures c.Succeeded? <==> fault == Ok && x in h.refs.live
    ensures c.Succeeded? ==> c.out == h.refs.live[x] + 1 && c.host.refs.live == h.refs.live[x := c.out]
    ensures c.Succeeded? ==> c.host.refs.next == h.refs.next && c.host.refs.released == h.refs.released
  {
    if fault != Ok then Failed(fault)
    else if x !in h.refs.live then Failed(InvalidArg)
    else
      var n := h.refs.live[x] + 1;
      Succeeded(h.(refs := h.refs.(live := h.refs.live[x := n])), n)
  }

  /** napi_reference_unref: lowers the count of a live reference; the host
      refuses to go below zero. */
  function ReferenceUnref(h: Host, x: Handle, fault: Status): (c: Call<nat>)
    ensures c.Succeeded? <==> fault == Ok && x in h.refs.live && h.refs.live[x] > 0
    ensures c.Succeeded? ==> c.out + 1 == h.refs.live[x] && c.host.refs.live == h.refs.live[x := c.out]
    ensures c.Succeeded? ==> c.host.refs.next == h.refs.next && c.host.refs.released == h.refs.released
  {
    if fault != Ok then Failed(fault)
    else if x !in h.refs.live then Failed(InvalidArg)
    else if h.refs.live[x] == 0 then Failed(GenericFailure)
    else
      var n := h.refs.live[x] - 1;
      Succeeded(h.(refs := h.refs.(live := h.refs.live[x := n])), n)
  }

  /** napi_create_async_work with `ctx` as the context pointer handed back to
      the execute and complete callbacks. */
  function CreateWork(h: Host, ctx: WorkerId, fault: Status): (c: Call<Handle>)
    ensures c.Succeeded? <==> fault == Ok
    ensures c.Failed? ==> c.status == fault
    ensures c.Succeeded? ==> c.out == h.works.next && c.host == h.(works := Insert(h.works, ctx).0)
  {
    if fault != Ok then Failed(fault)
    else
      var (t, w) := Insert(h.works, ctx);
      Succeeded(h.(works := t), w)
  }

  /** napi_delete_async_work, whose status the wrapper never looks at. */
  function DeleteWork(h: Host, w: Handle): (r: Host)
    ensures r == h.(works := Remove(h.works, w))
  {
    h.(works := Remove(h.works, w))
  }
}

=== FILE: reference_lifetimes.dfy ===
/** Properties of a Reference over its whole life: the uninitialised flag in the
    code as written, weak/strong transitions, and the release-exactly-once
    guarantee of the corrected constructors. */
module ReferenceLifetimes {
  import opened Wrappers
  import opened Host
  import opened References

  /** Reference::New on a non-null value, as written, hands back an object whose
      destructor reads `_suppressDestruct` although no constructor wrote it. */
  lemma NewAsWrittenDestroyReadsIndeterminate(env: EnvId, id: nat, count: nat, h: Host)
    ensures NewAsWritten(Held(Some(env), Val(id)), count, Ok, h).Success?
    ensures DestroyAsWritten(NewAsWritten(Held(Some(env), Val(id)), count, Ok, h).value.0, h).ReadsIndeterminate?
  {
  }

  /** The move constructor as written has the same gap: moving a non-empty
      reference yields an object whose destructor reads an unwritten flag. */
  lemma MoveAsWrittenDestroyReadsIndeterminate(src: Reference, h: Host)
    requires src.ref.Some?
    ensures DestroyAsWritten(MoveConstructAsWritten(src).0, h).ReadsIndeterminate?
  {
  }

  /** With the flag initialised, a reference made by New and then destroyed
      releases its napi_ref exactly once. */
  lemma NewThenDestroyReleasesOnce(v: Held, count: nat, h: Host)
    requires HostValid(h) && v.value != Nil
    ensures New(v, count, Ok, h).Success?
    ensures
      var (r, h1) := New(v, count, Ok, h).value;
      var h2 := Destroy(r, h1);
      && r.ref == Some(h.refs.next)
      && h.refs.next !in h2.refs.live
      && h2.refs.released[h.refs.next] == 1
      && HostValid(h2)
  {
    var (r, h1) := New(v, count, Ok, h).value;
    assert h.refs.released[h.refs.next] == 0 by { InsertValid(h.refs, count); }
  }

  /** A weak reference becomes strong after Ref() and weak again after Unref(),
      and the round trip leaves the host's refcounts as they were. */
  lemma WeakStrongRoundTrip(v: Held, h: Host)
    requires v.value != Nil
    ensures Weak(v, Ok, h).Success?
    ensures
      var (r, h1) := Weak(v, Ok, h).value;
      && IsWeak(r, h1)
      && Ref(r, h1, Ok).Success?
      && var (n, h2) := Ref(r, h1, Ok).value;
      && n == 1 && IsStrong(r, h2)
      && Unref(r, h2, Ok).Success?
      && var (m, h3) := Unref(r, h2, Ok).value;
      && m == 0 && IsWeak(r, h3) && h3 == h1
  {
    var (r, h1) := Weak(v, Ok, h).value;
    var (n, h2) := Ref(r, h1, Ok).value;
    var (m, h3) := Unref(r, h2, Ok).value;
    assert h3.refs.live == h1.refs.live;
  }

  /** A persistent reference cannot be unreferenced below zero: the second Unref()
      after Persistent() fails. */
  lemma PersistentUnrefFloor(v: Held, h: Host)
    requires v.value != Nil
    ensures Persistent(v, Ok, h).Success?
    ensures
      var (r, h1) := Persistent(v, Ok, h).value;
      && Unref(r, h1, Ok).Success?
      && var (m, h2) := Unref(r, h1, Ok).value;
      && m == 0 && IsWeak(r, h2) && Unref(r, h2, Ok).Failure?
  {
  }

  /** Self-move-assignment deletes the handle once and leaves nothing for the
      destructor, unlike the two-object assignment applied to one value, whose
      target would keep the handle it has just deleted. */
  lemma SelfMoveReleasesOnce(r: Reference, h: Host)
    requires HostValid(h) && Owns(r, h) && Defined(r) && r.ref.Some?
    ensures
      var s := SelfMoveAssign(r, h, Ok);
      && s.thrown.None? && HostValid(s.host)
      && Destroy(s.state, s.host) == s.host
      && s.host.refs.released[r.ref.value] == h.refs.released[r.ref.value] + 1
    ensures
      var m := MoveAssign(r, r, h, Ok);
      m.state.0.ref == r.ref && r.ref.value !in m.host.refs.live
  {
  }

  /** IsEmpty() is true exactly when there is nothing to release: Reset() and
      the destructor then leave the host alone and cannot throw, and a Reset()
      that does not throw always leaves the reference empty. */
  lemma EmptyHasNothingToRelease(r: Reference, h: Host, f: Status)
    ensures IsEmpty(r) ==> Defined(r) && Destroy(r, h) == h && Reset(r, h, f) == Step(r, h, None)
    ensures !IsEmpty(r) && f != Ok ==> Reset(r, h, f).thrown == Some(f)
    ensures Reset(r, h, f).thrown.None? ==> IsEmpty(Reset(r, h, f).state)
  {
  }

  /** One call a program may make on a live reference between its creation and
      its destruction. */
  datatype RefOp =
    | OpReset(fault: Status)
    | OpResetTo(v: Held, count: nat, delFault: Status, createFault: Status)
    | OpSuppress
    | OpRef(fault: Status)
    | OpUnref(fault: Status)

  /** Performs one call; an exception it throws is caught by the caller, and
      the object carries on in the state the exception left it in. */
  function Apply(r: Reference, h: Host, op: RefOp): (Reference, Host) {
    match op
    case OpReset(f) =>
      var s := Reset(r, h, f); (s.state, s.host)
    case OpResetTo(v, n, df, cf) =>
      var s := ResetTo(r, h, v, n, df, cf); (s.state, s.host)
    case OpSuppress => (SuppressDestruct(r), h)
    case OpRef(f) =>
      var c := Ref(r, h, f); if c.Success? then (r, c.value.1) else (r, h)
    case OpUnref(f) =>
      var c := Unref(r, h, f); if c.Success? then (r, c.value.1) else (r, h)
  }

  /** Performs a sequence of calls in order. */
  function Run(r: Reference, h: Host, ops: seq<RefOp>): (Reference, Host)
    decreases |ops|
  {
    if |ops| == 0 then (r, h)
    else
      var (r1, h1) := Apply(r, h, ops[0]);
      Run(r1, h1, ops[1..])
  }

  /** Every napi_ref handed out since `h0` is either the one `r` holds (live,
      never deleted) or was deleted exactly once, and older handles were not
      touched. */
  ghost predicate Accounted(r: Reference, h: Host, h0: Host) {
    && HostValid(h) && Owns(r, h) && r.suppress.Known?
    && h0.refs.next <= h.refs.next
    && (r.ref.Some? ==> h0.refs.next <= r.ref.value)
    && (forall x :: h0.refs.next <= x < h.refs.next && r.ref != Some(x) ==>
          x !in h.refs.live && h.refs.released[x] == 1)
    && (forall x :: x < h0.refs.next ==>
          h.refs.released[x] == h0.refs.released[x] && (x in h.refs.live <==> x in h0.refs.live))
  }

  /** Reset() keeps the account: the handle it deletes was the held one. */
  lemma ResetAccounted(r: Reference, h: Host, f: Status, h0: Host)
    requires Accounted(r, h, h0)
    ensures Accounted(Reset(r, h, f).state, Reset(r, h, f).host, h0)
  {
  }

  /** Creating a fresh napi_ref for an empty reference keeps the account. */
  lemma AdoptFreshAccounted(r: Reference, h: Host, count: nat, h0: Host)
    requires Accounted(r, h, h0) && r.ref.None?
    ensures
      var (t, x) := Insert(h.refs, count);
      Accounted(r.(ref := Some(x)), h.(refs := t), h0)
  {
    InsertValid(h.refs, count);
  }

  /** Reset(value, refcount) keeps the account. */
  lemma ResetToAccounted(r: Reference, h: Host, v: Held, n: nat, df: Status, cf: Status, h0: Host)
    requires Accounted(r, h, h0)
    ensures Accounted(ResetTo(r, h, v, n, df, cf).state, ResetTo(r, h, v, n, df, cf).host, h0)
  {
    var s0 := Reset(r, h, df);
    ResetAccounted(r, h, df, h0);
    if s0.thrown.None? && v.value != Nil && cf == Ok {
      AdoptFreshAccounted(s0.state.(env := v.env), s0.host, n, h0);
    }
  }

  /** Changing a count keeps the account: no handle appears, disappears or is deleted. */
  lemma RecountAccounted(r: Reference, h: Host, h': Host, h0: Host)
    requires Accounted(r, h, h0)
    requires h'.refs.live.Keys == h.refs.live.Keys
    requires h'.refs.next == h.refs.next && h'.refs.released == h.refs.released && h'.works == h.works
    ensures Accounted(r, h', h0)
  {
    assert forall x :: x in h'.refs.live <==> x in h.refs.live;
  }

  /** One call keeps the account. */
  lemma ApplyAccounted(r: Reference, h: Host, op: RefOp, h0: Host)
    requires Accounted(r, h, h0)
    ensures Accounted(Apply(r, h, op).0, Apply(r, h, op).1, h0)
  {
    match op
    case OpReset(f) => ResetAccounted(r, h, f, h0);
    case OpResetTo(v, n, df, cf) => ResetToAccounted(r, h, v, n, df, cf, h0);
    case OpSuppress =>
    case OpRef(f) =>
      var c := Ref(r, h, f);
      if c.Success? { RecountAccounted(r, h, c.value.1, h0); }
    case OpUnref(f) =>
      var c := Unref(r, h, f);
      if c.Success? { RecountAccounted(r, h, c.value.1, h0); }
  }

  /** Any sequence of calls keeps the account. */
  lemma {:induction false} RunAccounted(r: Reference, h: Host, ops: seq<RefOp>, h0: Host)
    requires Accounted(r, h, h0)
    ensures Accounted(Run(r, h, ops).0, Run(r, h, ops).1, h0)
    decreases |ops|
  {
    if |ops| > 0 {
      var (r1, h1) := Apply(r, h, ops[0]);
      ApplyAccounted(r, h, ops[0], h0);
      RunAccounted(r1, h1, ops[1..], h0);
    }
  }

  /** Whatever a program does with a reference that starts empty, once it is
      destroyed every napi_ref it ever owned has been deleted exactly once,
      except the one it held at the end if SuppressDestruct() was called, which
      stays live and is never deleted. */
  lemma ReleasedExactlyOnce(h: Host, ops: seq<RefOp>)
    requires HostValid(h)
    ensures Defined(Run(Empty(), h, ops).0)
    ensures
      var (r, h1) := Run(Empty(), h, ops);
      var h2 := Destroy(r, h1);
      && HostValid(h2)
      && (forall x :: h.refs.next <= x < h2.refs.next && !(r.ref == Some(x) && r.suppress == Known(true)) ==>
            x !in h2.refs.live && h2.refs.released[x] == 1)
      && (r.ref.Some? && r.suppress == Known(true) ==>
            r.ref.value in h2.refs.live && h2.refs.released[r.ref.value] == 0)
  {
    RunAccounted(Empty(), h, ops, h);
  }
}

=== FILE: references.dfy ===
/** Reference<T> and its ObjectReference / FunctionReference subclasses, which
    add no ownership logic of their own: a move-only owner of one napi_ref.

    Copy construction and copy assignment are deleted in the source, so the
    model offers no copy: the only ways a handle changes owner are the move
    constructor and move assignment. */
module References {
  import opened Wrappers
  import opened Host

  /** The `_suppressDestruct` field. Two constructors never write it, so the
      model keeps "never initialised" as a value of its own instead of guessing. */
  datatype Flag = Indeterminate | Known(suppressed: bool)

  /** A Reference<T>: the env it belongs to, the napi_ref it owns (None stands
      for nullptr) and its suppress flag. */
  datatype Reference = Reference(env: Option<EnvId>, ref: Option<Handle>, suppress: Flag)

  /** The T a reference is made from (an Object, a Function, ...): its env and
      its napi_value. */
  datatype Held = Held(env: Option<EnvId>, value: Value)

  /** `r` owns a reference the host still holds. */
  ghost predicate Owns(r: Reference, h: Host) {
    r.ref.Some? ==> r.ref.value in h.refs.live
  }

  /** Two references never own the same napi_ref. */
  predicate Disjoint(a: Reference, b: Reference) {
    a.ref.Some? && b.ref.Some? ==> a.ref.value != b.ref.value
  }

  /** The destructor's read of the flag is defined: the reference is empty (the
      flag is then not read) or the flag was written. */
  predicate Defined(r: Reference) {
    r.ref.None? || r.suppress.Known?
  }

  /** `r` holds a reference the host counts as strong (count at least one). */
  ghost predicate IsStrong(r: Reference, h: Host) {
    r.ref.Some? && r.ref.value in h.refs.live && h.refs.live[r.ref.value] >= 1
  }

  /** `r` holds a reference the host counts as weak (count zero). */
  ghost predicate IsWeak(r: Reference, h: Host) {
    r.ref.Some? && r.ref.value in h.refs.live && h.refs.live[r.ref.value] == 0
  }

  /** Reference(): no env, no napi_ref, not suppressed. */
  function Empty(): Reference {
    Reference(None, None, Known(false))
  }

  /** Reference::New with the value the private (env, ref) constructor leaves in
      the flag: `init`. */
  function NewWith(v: Held, count: nat, fault: Status, h: Host, init: Flag): (r: Result<(Reference, Host), Status>)
    ensures v.value == Nil ==> r == Success((Reference(v.env, None, init), h))
    ensures v.value != Nil && fault != Ok ==> r == Failure(fault)
    ensures v.value != Nil && fault == Ok ==>
      r == Success((Reference(v.env, Some(h.refs.next), init), h.(refs := Insert(h.refs, count).0)))
  {
    if v.value == Nil then Success((Reference(v.env, None, init), h))
    else
      match CreateReference(h, count, fault)
      case Failed(s) => Failure(s)
      case Succeeded(h', x) => Success((Reference(v.env, Some(x), init), h'))
  }

  /** Reference::New as written: the (env, ref) constructor leaves the flag unset. */
  function NewAsWritten(v: Held, count: nat, fault: Status, h: Host): (r: Result<(Reference, Host), Status>)
    ensures r.Success? ==> r.value.0.suppress.Indeterminate?
    ensures r.Success? ==> (r.value.0.ref.None? <==> v.value == Nil)
  {
    NewWith(v, count, fault, h, Indeterminate)
  }

  /** Reference::New with the flag initialised to false, as the default
      constructor does. A null value gives an empty reference and no host call;
      otherwise the host creates a fresh napi_ref with `count`, or the call
      throws with the host's status. */
  function New(v: Held, count: nat, fault: Status, h: Host): (r: Result<(Reference, Host), Status>)
    ensures r.Failure? <==> v.value != Nil && fault != Ok
    ensures r.Failure? ==> r.error == fault
    ensures r.Success? ==> r.value.0.env == v.env && r.value.0.suppress == Known(false)
    ensures r.Success? ==> (r.value.0.ref.None? <==> v.value == Nil)
    ensures r.Success? && r.value.0.ref.None? ==> r.value.1 == h
    ensures r.Success? && r.value.0.ref.Some? ==>
      var (ref, h') := r.value;
      && ref.ref.value in h'.refs.live && h'.refs.live[ref.ref.value] == count
      && (forall y :: y in h.refs.live && y != ref.ref.value ==> y in h'.refs.live && h'.refs.live[y] == h.refs.live[y])
      && h'.refs.released == h.refs.released && h'.works == h.works
    ensures r.Success? && r.value.0.ref.Some? && HostValid(h) ==>
      r.value.0.ref.value !in h.refs.live && r.value.0.ref.value !in h.refs.released
    ensures r.Success? && HostValid(h) ==> HostValid(r.value.1) && Owns(r.value.0, r.value.1)
  {
    NewWith(v, count, fault, h, Known(false))
  }

  /** Weak(value): a reference created with count 0. */
  function Weak(v: Held, fault: Status, h: Host): (r: Result<(Reference, Host), Status>)
    ensures r.Success? && r.value.0.ref.Some? ==> IsWeak(r.value.0, r.value.1)
    ensures r.Success? <==> v.value == Nil || fault == Ok
  {
    New(v, 0, fault, h)
  }

  /** Persistent(value): a reference created with count 1. */
  function Persistent(v: Held, fault: Status, h: Host): (r: Result<(Reference, Host), Status>)
    ensures r.Success? && r.value.0.ref.Some? ==> IsStrong(r.value.0, r.value.1)
    ensures r.Success? && r.value.0.ref.Some? ==> r.value.1.refs.live[r.value.0.ref.value] == 1
    ensures r.Success? <==> v.value == Nil || fault == Ok
  {
    New(v, 1, fault, h)
  }

  /** What the destructor does: the host's new state, or the fact that it read
      a flag no constructor wrote. */
  datatype Teardown = TornDown(host: Host) | ReadsIndeterminate

  /** ~Reference() as written: an empty reference is left alone without reading
      the flag; otherwise the flag decides whether napi_delete_reference runs. */
  function DestroyAsWritten(r: Reference, h: Host): (t: Teardown)
    ensures t.ReadsIndeterminate? <==> !Defined(r)
    ensures r.ref.None? || r.suppress == Known(true) ==> t == TornDown(h)
    ensures r.ref.Some? && r.suppress == Known(false) ==>
      t == TornDown(h.(refs := Remove(h.refs, r.ref.value)))
  {
    match r.ref
    case None => TornDown(h)
    case Some(x) =>
      match r.suppress
      case Indeterminate => ReadsIndeterminate
      case Known(suppressed) =>
        if suppressed then TornDown(h) else TornDown(DeleteReference(h, x, Ok).host)
  }

  /** ~Reference() on a reference whose flag read is defined: the napi_ref is
      deleted exactly when there is one and it is not suppressed, and nothing
      else in the host changes. */
  function Destroy(r: Reference, h: Host): (h': Host)
    requires Defined(r)
    ensures r.ref.None? || r.suppress.suppressed ==> h' == h
    ensures r.ref.Some? && !r.suppress.suppressed ==>
      && r.ref.value !in h'.refs.live
      && h'.refs.released == h.refs.released + multiset{r.ref.value}
      && h'.refs.live == h.refs.live - {r.ref.value}
      && h'.works == h.works
    ensures HostValid(h) && Owns(r, h) ==> HostValid(h')
  {
    DestroyAsWritten(r, h).host
  }

  /** Reset(): deletes the owned napi_ref, if any, and leaves the reference empty.
      A host failure throws and leaves the reference as it was. The env and the
      flag are not touched. */
  function Reset(r: Reference, h: Host, fault: Status): (s: Step<Reference>)
    ensures s.thrown.Some? <==> r.ref.Some? && fault != Ok
    ensures s.thrown.Some? ==> s == Step(r, h, Some(fault))
    ensures s.thrown.None? ==> s.state == r.(ref := None)
    ensures r.ref.None? ==> s.host == h
    ensures r.ref.Some? && fault == Ok ==>
      && r.ref.value !in s.host.refs.live
      && s.host.refs.released == h.refs.released + multiset{r.ref.value}
      && s.host.refs.live == h.refs.live - {r.ref.value}
      && s.host.works == h.works
    ensures HostValid(h) && Owns(r, h) ==> HostValid(s.host) && Owns(s.state, s.host)
  {
    match r.ref
    case None => Step(r, h, None)
    case Some(x) =>
      match DeleteReference(h, x, fault)
      case Failed(st) => Step(r, h, Some(st))
      case Succeeded(h', _) => Step(r.(ref := None), h', None)
  }

  /** Reset(value, refcount): resets, adopts the value's env, and then, unless
      the value is null, creates a fresh napi_ref with `count`. Each of the two
      host calls can throw; the second leaves the reference empty. */
  function ResetTo(r: Reference, h: Host, v: Held, count: nat, delFault: Status, createFault: Status): (s: Step<Reference>)
    ensures r.ref.Some? && delFault != Ok ==> s == Step(r, h, Some(delFault))
    ensures r.ref.None? || delFault == Ok ==>
      && s.state.env == v.env
      && s.state.suppress == r.suppress
      && (s.thrown.Some? <==> v.value != Nil && createFault != Ok)
      && (s.state.ref.Some? <==> v.value != Nil && createFault == Ok)
      && (s.thrown.Some? ==> s.thrown.value == createFault)
    ensures s.thrown.None? && s.state.ref.Some? && HostValid(h) ==> s.state.ref.value !in h.refs.live
    ensures s.thrown.None? && s.state.ref.Some? ==>
      && s.state.ref.value in s.host.refs.live
      && s.host.refs.live[s.state.ref.value] == count
    ensures r.ref.Some? && delFault == Ok ==> s.host.refs.released == h.refs.released + multiset{r.ref.value}
    ensures r.ref.None? ==> s.host.refs.released == h.refs.released
    ensures HostValid(h) && Owns(r, h) ==> HostValid(s.host) && Owns(s.state, s.host)
  {
    var s0 := Reset(r, h, delFault);
    if s0.thrown.Some? then s0
    else
      var r1 := s0.state.(env := v.env);
      if v.value == Nil then Step(r1, s0.host, None)
      else
        match CreateReference(s0.host, count, createFault)
        case Failed(st) => Step(r1, s0.host, Some(st))
        case Succeeded(h2, x) => Step(r1.(ref := Some(x)), h2, None)
  }

  /** The move constructor with the value it leaves in the new object's flag. */
  function MoveConstructWith(src: Reference, init: Flag): (p: (Reference, Reference))
    ensures p.0 == Reference(src.env, src.ref, init)
    ensures p.1 == Reference(None, None, src.suppress)
  {
    (Reference(src.env, src.ref, init), Reference(None, None, src.suppress))
  }

  /** Reference(Reference&&) as written: the new object's flag is never written. */
  function MoveConstructAsWritten(src: Reference): (p: (Reference, Reference))
    ensures p.0.ref == src.ref && p.1.ref.None?
    ensures p.0.suppress.Indeterminate?
  {
    MoveConstructWith(src, Indeterminate)
  }

  /** Reference(Reference&&) with the flag initialised to false: the new object
      takes over the env and napi_ref, the source is left empty with no env,
      and ownership is neither duplicated nor lost. */
  function MoveConstruct(src: Reference, h: Host): (p: (Reference, Reference))
    ensures p.0.env == src.env && p.0.ref == src.ref && p.0.suppress == Known(false)
    ensures p.1.env.None? && p.1.ref.None?
    ensures Owns(src, h) ==> Owns(p.0, h) && Owns(p.1, h) && Disjoint(p.0, p.1)
    ensures Defined(p.0) && (Defined(src) ==> Defined(p.1))
  {
    MoveConstructWith(src, Known(false))
  }

  /** operator=(Reference&&): resets the target first (which may throw, leaving
      both objects as they were), then moves the env and napi_ref across and
      leaves the source empty. Flags stay with their objects. */
  function MoveAssign(dst: Reference, src: Reference, h: Host, fault: Status): (s: Step<(Reference, Reference)>)
    ensures s.thrown.Some? <==> dst.ref.Some? && fault != Ok
    ensures s.thrown.Some? ==> s == Step((dst, src), h, Some(fault))
    ensures s.thrown.None? ==>
      && s.state.0 == Reference(src.env, src.ref, dst.suppress)
      && s.state.1 == Reference(None, None, src.suppress)
    ensures dst.ref.None? ==> s.host == h
    ensures dst.ref.Some? && fault == Ok ==>
      s.host.refs.released == h.refs.released + multiset{dst.ref.value}
    ensures HostValid(h) && Owns(dst, h) && Owns(src, h) && Disjoint(dst, src) ==>
      HostValid(s.host) && Owns(s.state.0, s.host) && Owns(s.state.1, s.host) && Disjoint(s.state.0, s.state.1)
  {
    var s0 := Reset(dst, h, fault);
    if s0.thrown.Some? then Step((dst, src), h, s0.thrown)
    else Step((Reference(src.env, src.ref, dst.suppress), Reference(None, None, src.suppress)), s0.host, None)
  }

  /** operator=(Reference&&) with the object as its own source (`r = std::move(r)`).
      Reset() runs first and nulls `_ref`; the copy then reads that null back,
      and clearing the source empties the env as well. The reference ends empty
      with its old handle deleted once; a failing delete throws with nothing
      changed. */
  function SelfMoveAssign(r: Reference, h: Host, fault: Status): (s: Step<Reference>)
    ensures s.thrown.Some? <==> r.ref.Some? && fault != Ok
    ensures s.thrown.Some? ==> s == Step(r, h, Some(fault))
    ensures s.thrown.None? ==> s.state.env.None? && s.state.ref.None? && s.state.suppress == r.suppress
    ensures r.ref.None? ==> s.host == h
    ensures r.ref.Some? && fault == Ok ==>
      && r.ref.value !in s.host.refs.live
      && s.host.refs.released == h.refs.released + multiset{r.ref.value}
    ensures HostValid(h) && Owns(r, h) ==> HostValid(s.host) && Owns(s.state, s.host)
  {
    var s0 := Reset(r, h, fault);
    if s0.thrown.Some? then s0
    else
      var target := s0.state;
      var copied := Reference(target.env, target.ref, target.suppress);
      Step(copied.(env := None, ref := None), s0.host, None)
  }

  /** SuppressDestruct(): from now on the destructor leaves the napi_ref alone. */
  function SuppressDestruct(r: Reference): (r': Reference)
    ensures r'.env == r.env && r'.ref == r.ref
    ensures r'.suppress == Known(true) && Defined(r')
  {
    r.(suppress := Known(true))
  }

  /** IsEmpty(): true iff no napi_ref is owned. */
  function IsEmpty(r: Reference): (b: bool)
    ensures b ==> Defined(r) && forall h: Host :: Owns(r, h)
    ensures !b ==> exists h: Host :: !Owns(r, h)
  {
    var bare := Host(Table(map[], 0, multiset{}), Table(map[], 0, multiset{}));
    assert r.ref.Some? ==> !Owns(r, bare);
    r.ref.None?
  }

  /** Ref(): raises the host count by one and returns the new count. */
  function Ref(r: Reference, h: Host, fault: Status): (c: Result<(nat, Host), Status>)
    ensures c.Success? <==> fault == Ok && r.ref.Some? && r.ref.value in h.refs.live
    ensures c.Success? ==>
      var (n, h') := c.value;
      && n == h.refs.live[r.ref.value] + 1
      && h'.refs.live == h.refs.live[r.ref.value := n]
      && h'.refs.next == h.refs.next && h'.refs.released == h.refs.released && h'.works == h.works
  {
    match r.ref
    case None => if fault != Ok then Failure(fault) else Failure(InvalidArg)
    case Some(x) =>
      match ReferenceRef(h, x, fault)
      case Failed(st) => Failure(st)
      case Succeeded(h', n) => Success((n, h'))
  }

  /** Unref(): lowers the host count by one and returns the new count; the host
      refuses to lower a count of zero. */
  function Unref(r: Reference, h: Host, fault: Status): (c: Result<(nat, Host), Status>)
    ensures c.Success? <==> fault == Ok && r.ref.Some? && r.ref.value in h.refs.live && h.refs.live[r.ref.value] > 0
    ensures c.Success? ==>
      var (n, h') := c.value;
      && n + 1 == h.refs.live[r.ref.value]
      && h'.refs.live == h.refs.live[r.ref.value := n]
      && h'.refs.next == h.refs.next && h'.refs.released == h.refs.released && h'.works == h.works
  {
    match r.ref
    case None => if fault != Ok then Failure(fault) else Failure(InvalidArg)
    case Some(x) =>
      match ReferenceUnref(h, x, fault)
      case Failed(st) => Failure(st)
      case Succeeded(h', n) => Success((n, h'))
  }
}

=== FILE: typed_arrays.dfy ===
/** TypedArray's element size and byte length, computed from the array type and
    element count the host reports once and the wrapper then caches. */
module TypedArrays {
  import opened Wrappers
  import opened Host

  /** One past the largest size_t on a 64-bit platform. */
  const SizeLimit: nat := 0x1_0000_0000_0000_0000

  type Size = n: nat | n < SizeLimit

  /** The codes of napi_typedarray_type that name none of the nine kinds,
      which are numbered 0 (napi_int8_array) to 8 (napi_float64_array). */
  type UnnamedCode = c: int | c < 0 || c > 8 witness -1

  /** napi_typedarray_type; a code outside the nine named kinds is OtherType. */
  datatype ArrayType =
    | Int8 | Uint8 | Uint8Clamped
    | Int16 | Uint16
    | Int32 | Uint32 | Float32
    | Float64
    | OtherType(code: UnnamedCode)

  /** A TypedArray: its napi_value and the cached type and length. A `kind` of
      None is the unknown_array_type sentinel: nothing has been fetched yet. */
  datatype TypedArray = TypedArray(value: Value, kind: Option<ArrayType>, length: Size)

  /** What napi_get_typedarray_info reports for the array. */
  datatype InfoReply = InfoReply(status: Status, kind: ArrayType, length: Size)

  /** TypedArray(env, value): type and length still to be fetched. */
  function FromValue(v: Value): TypedArray {
    TypedArray(v, None, 0)
  }

  /** The bytes per element of each kind; kinds missing from the table have none. */
  const ElementSizes: map<ArrayType, nat> := map[
    Int8 := 1, Uint8 := 1, Uint8Clamped := 1,
    Int16 := 2, Uint16 := 2,
    Int32 := 4, Uint32 := 4, Float32 := 4,
    Float64 := 8]

  /** The switch in ElementSize(). */
  function SizeOf(t: ArrayType): nat {
    match t
    case Int8 => 1
    case Uint8 => 1
    case Uint8Clamped => 1
    case Int16 => 2
    case Uint16 => 2
    case Int32 => 4
    case Uint32 => 4
    case Float32 => 4
    case Float64 => 8
    case OtherType(_) => 0
  }

  /** The switch agrees with the table, yields a power of two no larger than 8
      for every named kind, and 0 exactly for an unnamed one. */
  lemma SizeOfMatchesTable(t: ArrayType)
    ensures SizeOf(t) == (if t in ElementSizes then ElementSizes[t] else 0)
    ensures SizeOf(t) in {0, 1, 2, 4, 8}
    ensures SizeOf(t) == 0 <==> t.OtherType?
  {
  }

  /** Fills the cache from the host the first time it is needed; a filled cache
      is used as is and the host is not asked again. */
  function Fetch(a: TypedArray, reply: InfoReply): (r: Result<TypedArray, Status>)
    ensures a.kind.Some? ==> r == Success(a)
    ensures a.kind.None? ==> (r.Success? <==> reply.status == Ok)
    ensures r.Failure? ==> r.error == reply.status
    ensures a.kind.None? && r.Success? ==>
      r.value == a.(kind := Some(reply.kind), length := reply.length)
    ensures r.Success? ==> r.value.kind.Some? && r.value.value == a.value
  {
    if a.kind.Some? then Success(a)
    else if reply.status != Ok then Failure(reply.status)
    else Success(a.(kind := Some(reply.kind), length := reply.length))
  }

  /** TypedArrayType(): the element kind, from the cache or else from the host,
      together with the array as it is left (its cache filled). */
  function TypedArrayType(a: TypedArray, reply: InfoReply): (r: Result<(ArrayType, TypedArray), Status>)
    ensures r.Failure? <==> a.kind.None? && reply.status != Ok
    ensures r.Failure? ==> r.error == reply.status
    ensures r.Success? ==> r.value.1 == (if a.kind.Some? then a else a.(kind := Some(reply.kind), length := reply.length))
    ensures r.Success? ==> r.value.1.kind == Some(r.value.0)
    ensures r.Success? && a.kind.Some? ==> r.value.0 == a.kind.value
  {
    match Fetch(a, reply)
    case Failure(s) => Failure(s)
    case Success(b) => Success((b.kind.value, b))
  }

  /** ElementSize(): the size of the element kind the host reports. */
  function ElementSize(a: TypedArray, reply: InfoReply): (r: Result<(nat, TypedArray), Status>)
    ensures r.Failure? <==> a.kind.None? && reply.status != Ok
    ensures r.Failure? ==> r.error == reply.status
    ensures r.Success? ==> r.value.1 == (if a.kind.Some? then a else a.(kind := Some(reply.kind), length := reply.length))
    ensures r.Success? ==> r.value.1.kind.Some? && r.value.0 == SizeOf(r.value.1.kind.value)
    ensures r.Success? ==> r.value.0 <= 8
  {
    match TypedArrayType(a, reply)
    case Failure(s) => Failure(s)
    case Success((t, b)) => Success((SizeOf(t), b))
  }

  /** ElementLength(): the number of elements, from the cache or else from the
      host, together with the array as it is left (its cache filled). */
  function ElementLength(a: TypedArray, reply: InfoReply): (r: Result<(Size, TypedArray), Status>)
    ensures r.Failure? <==> a.kind.None? && reply.status != Ok
    ensures r.Failure? ==> r.error == reply.status
    ensures r.Success? ==> r.value.1 == (if a.kind.Some? then a else a.(kind := Some(reply.kind), length := reply.length))
    ensures r.Success? ==> r.value.0 == r.value.1.length && r.value.1.kind.Some?
    ensures r.Success? && a.kind.Some? ==> r.value.0 == a.length
  {
    match Fetch(a, reply)
    case Failure(s) => Failure(s)
    case Success(b) => Success((b.length, b))
  }

  /** ByteLength() = ElementSize() * ElementLength(), computed in size_t. Both
      factors come from a single fetch: ElementSize fills the cache and
      ElementLength then reads it. */
  function ByteLength(a: TypedArray, reply: InfoReply): (r: Result<(Size, TypedArray), Status>)
    ensures r.Failure? <==> a.kind.None? && reply.status != Ok
    ensures r.Success? ==>
      var (n, b) := r.value;
      && b == (if a.kind.Some? then a else a.(kind := Some(reply.kind), length := reply.length))
      && n == (SizeOf(b.kind.value) * b.length) % SizeLimit
  {
    match ElementSize(a, reply)
    case Failure(s) => Failure(s)
    case Success((size, b)) =>
      var (len, c) := ElementLength(b, reply).value;
      Success(((size * len) % SizeLimit, c))
  }

  /** ByteLength() with the other operand evaluated first, which C++ equally
      allows: ElementLength fills the cache and ElementSize reads it. */
  function ByteLengthLengthFirst(a: TypedArray, reply: InfoReply): Result<(Size, TypedArray), Status> {
    match ElementLength(a, reply)
    case Failure(s) => Failure(s)
    case Success((len, b)) =>
      var (size, c) := ElementSize(b, reply).value;
      Success(((size * len) % SizeLimit, c))
  }

  /** The order in which the compiler evaluates the two factors does not
      change the result, the array's cache, or whether the call throws. */
  lemma ByteLengthOrderIrrelevant(a: TypedArray, reply: InfoReply)
    ensures ByteLengthLengthFirst(a, reply) == ByteLength(a, reply)
  {
  }

  /** Once the info has been fetched, every query answers from the cache: the
      host's reply no longer matters and the array no longer changes. */
  lemma CachedAnswersAreStable(a: TypedArray, first: InfoReply, later: InfoReply)
    requires Fetch(a, first).Success?
    ensures
      var b := Fetch(a, first).value;
      && TypedArrayType(b, later) == Success((b.kind.value, b))
      && ElementLength(b, later) == Success((b.length, b))
      && ElementSize(b, later) == Success((SizeOf(b.kind.value), b))
      && ByteLength(b, later) == ByteLength(a, first)
  {
  }

  /** Without overflow the byte length is the exact product, and it is zero
      exactly when the kind is unnamed or the array has no elements. */
  lemma ByteLengthExact(a: TypedArray, reply: InfoReply)
    requires ByteLength(a, reply).Success?
    requires
      var b := ByteLength(a, reply).value.1;
      SizeOf(b.kind.value) * b.length < SizeLimit
    ensures
      var (n, b) := ByteLength(a, reply).value;
      && n == SizeOf(b.kind.value) * b.length
      && (n == 0 <==> b.kind.value.OtherType? || b.length == 0)
  {
    var (n, b) := ByteLength(a, reply).value;
    SizeOfMatchesTable(b.kind.value);
  }

  /** An array made from a bare value asks the host on its first query: the
      query throws exactly when the host fails, and otherwise the array caches
      and answers with exactly the reported type and length. */
  lemma FreshArrayAsksHost(v: Value, reply: InfoReply)
    ensures ByteLength(FromValue(v), reply).Failure? <==> reply.status != Ok
    ensures reply.status == Ok ==>
      && ByteLength(FromValue(v), reply).value.1 == TypedArray(v, Some(reply.kind), reply.length)
      && ElementSize(FromValue(v), reply).value.0 == SizeOf(reply.kind)
      && ElementLength(FromValue(v), reply).value.0 == reply.length
  {
  }

  /** An array made with a known type and length never asks the host. */
  lemma KnownArrayNeverQueries(v: Value, t: ArrayType, len: Size, reply: InfoReply)
    ensures ByteLength(TypedArray(v, Some(t), len), reply).Success?
    ensures ByteLength(TypedArray(v, Some(t), len), reply).value.0 == (SizeOf(t) * len) % SizeLimit
  {
  }
}

=== FILE: worker_lifecycle.dfy ===
/** An AsyncWorker's life as the host drives it, one phase after another:
    construction, then either cancellation before the work starts or
    OnExecute, then OnWorkComplete. */
module WorkerLifecycle {
  import opened Wrappers
  import opened Host
  import opened Errors
  import References
  import opened AsyncWorkers

  /** What the host does with a queued worker: drops it before it starts, or
      runs the given Execute() body. */
  datatype Schedule = CancelledBeforeStart | Ran(body: Body)

  /** How a life ends: the on-thread phase's outcome, or an exception that
      Execute() let escape onto the host's worker thread. */
  datatype Life = Finished(completion: Completion) | ExecuteCrashed

  /** The host's side of a queued worker's life. The completion status it
      passes is napi_cancelled after a cancellation and napi_ok after a run;
      the rest of `c` is the host's side of the on-thread phase. */
  function Live(w: Worker, h: Host, sched: Schedule, c: CompleteInputs): Life
    requires Defined(w)
  {
    match sched
    case CancelledBeforeStart => Finished(OnWorkComplete(w, h, c.(status := Cancelled)))
    case Ran(body) =>
      match OnExecute(w, body)
      case ExecuteEscaped => ExecuteCrashed
      case Executed(w') => Finished(OnWorkComplete(w', h, c.(status := Ok)))
  }

  /** A worker whose references are not suppressed gives every handle back
      when it is deleted. */
  ghost predicate ReleasesAll(w: Worker, h: Host, h': Host) {
    && HostValid(h')
    && (w.work.Some? ==> w.work.value !in h'.works.live && h'.works.released[w.work.value] == 1)
    && (w.receiver.ref.Some? ==> w.receiver.ref.value !in h'.refs.live && h'.refs.released[w.receiver.ref.value] == 1)
    && (w.callback.ref.Some? ==> w.callback.ref.value !in h'.refs.live && h'.refs.released[w.callback.ref.value] == 1)
  }

  /** Deleting a worker that holds its handles releases each exactly once. */
  lemma DestroyReleasesAll(w: Worker, h: Host)
    requires HostValid(h) && Holds(w, h) && Defined(w)
    requires w.receiver.suppress == References.Known(false) && w.callback.suppress == References.Known(false)
    ensures ReleasesAll(w, h, Destroy(w, h))
  {
    if w.work.Some? {
      assert h.works.released[w.work.value] == 0;
    }
  }

  /** Cancelled before it starts: neither OnOK nor OnError runs, no script
      exception is raised, and the worker is still deleted, giving back every
      handle it held. */
  lemma CancelledIsSilent(w: Worker, h: Host, c: CompleteInputs)
    requires HostValid(h) && Holds(w, h) && Defined(w)
    requires w.receiver.suppress == References.Known(false) && w.callback.suppress == References.Known(false)
    ensures Live(w, h, CancelledBeforeStart, c) == Finished(Completed(NoHandler, None, Destroy(w, h)))
    ensures ReleasesAll(w, h, Destroy(w, h))
  {
    DestroyReleasesAll(w, h);
  }

  /** Not cancelled, the handle scope opens: exactly one handler runs, OnOK
      exactly when the captured error is empty; OnError otherwise, with an
      Error whose message is exactly the captured text when the host can
      build it. */
  lemma ExactlyOneHandler(w: Worker, h: Host, c: CompleteInputs)
    requires Defined(w) && c.status != Cancelled && c.scopeStatus == Ok
    requires w.error != "" ==> c.stringStatus == Ok && c.createStatus == Ok
    ensures OnWorkComplete(w, h, c).handler != NoHandler
    ensures OnWorkComplete(w, h, c).handler == RanOnOK <==> w.error == ""
    ensures OnWorkComplete(w, h, c).handler == RanOnError(Built(PlainError, w.error)) <==> w.error != ""
  {
  }

  /** An Execute() that returns without calling SetError on a fresh worker
      leads to OnOK and never to OnError. */
  lemma ReturnRunsOnOK(w: Worker, h: Host, c: CompleteInputs)
    requires Defined(w) && w.error == "" && c.scopeStatus == Ok
    ensures Live(w, h, Ran(Body([], Returned)), c).Finished?
    ensures Live(w, h, Ran(Body([], Returned)), c).completion.handler == RanOnOK
  {
  }

  /** An Execute() that throws a std::exception with a non-empty what() leads
      to OnError with an Error carrying exactly that text, whatever the worker
      held before; OnOK does not run. */
  lemma ThrowRunsOnError(w: Worker, h: Host, sets: seq<string>, what: string, c: CompleteInputs)
    requires Defined(w) && what != "" && c.scopeStatus == Ok
    requires c.stringStatus == Ok && c.createStatus == Ok
    ensures Live(w, h, Ran(Body(sets, ThrewStd(what))), c).Finished?
    ensures Live(w, h, Ran(Body(sets, ThrewStd(what))), c).completion.handler == RanOnError(Built(PlainError, what))
  {
  }

  /** A std::exception whose what() is empty is reported as success: OnOK runs. */
  lemma EmptyWhatRunsOnOK(w: Worker, h: Host, sets: seq<string>, c: CompleteInputs)
    requires Defined(w) && c.scopeStatus == Ok
    ensures Live(w, h, Ran(Body(sets, ThrewStd(""))), c).completion.handler == RanOnOK
  {
  }

  /** A SetError call inside Execute() is enough to route the completion to
      OnError, even when Execute() then returns normally. */
  lemma SetErrorRoutesToOnError(w: Worker, h: Host, message: string, c: CompleteInputs)
    requires Defined(w) && message != "" && c.scopeStatus == Ok
    requires c.stringStatus == Ok && c.createStatus == Ok
    ensures Live(w, h, Ran(Body([message], Returned)), c).completion.handler == RanOnError(Built(PlainError, message))
  {
  }

  /** A Napi::Error thrown by OnOK or OnError does not escape: it is rethrown
      as a script exception and the worker is deleted all the same. */
  lemma HandlerErrorBecomesScriptException(w: Worker, h: Host, c: CompleteInputs, e: ErrorValue)
    requires Defined(w) && c.status != Cancelled && c.scopeStatus == Ok
    requires w.error != "" ==> c.stringStatus == Ok && c.createStatus == Ok
    requires c.exit == HandlerThrewError(e) && e != NoValue && c.throwStatus == Ok
    ensures OnWorkComplete(w, h, c) == Completed(OnWorkComplete(w, h, c).handler, Some(e), Destroy(w, h))
  {
  }

  /** When Error::New(env, error) itself throws, the handler never runs but the
      resulting Error is still rethrown as a script exception and the worker
      is deleted. */
  lemma ErrorConstructionFailureIsRethrown(w: Worker, h: Host, c: CompleteInputs)
    requires Defined(w) && c.status != Cancelled && c.scopeStatus == Ok && c.throwStatus == Ok
    requires w.error != "" && c.stringStatus != Ok && c.stringStatus != PendingException
    requires HostCooperates(c.query)
    ensures OnWorkComplete(w, h, c) ==
      Completed(NoHandler, Some(Built(if c.stringStatus in TypeCodes then TypeError else PlainError, MessageOf(c.query.info))),
                Destroy(w, h))
  {
  }

  /** Every way the on-thread phase finishes deletes the worker; the only
      outcomes that skip the deletion are exceptions leaving the callback. */
  lemma CompletionDeletesUnlessEscaped(w: Worker, h: Host, c: CompleteInputs)
    requires HostValid(h) && Holds(w, h) && Defined(w)
    requires w.receiver.suppress == References.Known(false) && w.callback.suppress == References.Known(false)
    ensures OnWorkComplete(w, h, c).Completed? ==> ReleasesAll(w, h, OnWorkComplete(w, h, c).host)
    ensures OnWorkComplete(w, h, c).Escaped? <==>
      && c.status != Cancelled
      && (|| c.scopeStatus != Ok
          || (c.exit.HandlerThrewOther? && OnWorkComplete(w, h, c).handler != NoHandler)
          || ((c.exit.HandlerThrewError? || OnWorkComplete(w, h, c).handler == NoHandler) && c.throwStatus != Ok))
  {
    DestroyReleasesAll(w, h);
  }

  /** The default handlers pass the outcome on to the callback, on the
      receiver: no arguments exactly when the captured error is empty, and
      otherwise exactly one, an Error carrying the captured text; no call at
      all when that Error cannot be built. */
  lemma DefaultHandlersReportOutcome(w: Worker, h: Host, c: CompleteInputs)
    requires Defined(w) && c.status != Cancelled && c.scopeStatus == Ok
    ensures
      var i := DefaultInvocation(w, OnWorkComplete(w, h, c).handler);
      && (w.error == "" ==> i == Some(Invocation(w.callback.ref, w.receiver.ref, [])))
      && (w.error != "" && c.stringStatus == Ok && c.createStatus == Ok ==>
            i == Some(Invocation(w.callback.ref, w.receiver.ref, [Built(PlainError, w.error)])))
      && (w.error != "" && !(c.stringStatus == Ok && c.createStatus == Ok) ==> i.None?)
  {
  }

  /** The scenario of a unit whose Execute() throws "disk read failed": with
      the default OnError, the callback is called on the receiver with one
      argument, an Error whose message is exactly that text. */
  lemma DiskReadFailedScenario(w: Worker, h: Host, c: CompleteInputs)
    requires Defined(w) && c.scopeStatus == Ok && c.stringStatus == Ok && c.createStatus == Ok
    ensures
      var life := Live(w, h, Ran(Body([], ThrewStd("disk read failed"))), c);
      && life.Finished?
      && DefaultInvocation(w, life.completion.handler)
         == Some(Invocation(w.callback.ref, w.receiver.ref, [Built(PlainError, "disk read failed")]))
  {
  }

  /** A freshly constructed worker that is queued and then either cancelled or
      run to a completion that does not escape gives back every handle it
      took: its work item and its two references, each exactly once. */
  lemma ConstructedWorkerReleasesAll(id: WorkerId, receiver: References.Held, callback: References.Held,
                                     f: ConstructFaults, h: Host, sched: Schedule, c: CompleteInputs)
    requires HostValid(h)
    requires Construct(id, receiver, callback, f, h).Constructed?
    ensures
      var k := Construct(id, receiver, callback, f, h);
      && Queue(k.worker, Ok).None?
      && var life := Live(k.worker, k.host, sched, c);
      && (life.Finished? && life.completion.Completed? ==> ReleasesAll(k.worker, k.host, life.completion.host))
  {
    ConstructKeepsHost(id, receiver, callback, f, h);
    var k := Construct(id, receiver, callback, f, h);
    DestroyReleasesAll(k.worker, k.host);
    match sched
    case CancelledBeforeStart =>
    case Ran(body) =>
      match OnExecute(k.worker, body)
      case ExecuteEscaped =>
      case Executed(w') =>
        assert w' == k.worker.(error := w'.error);
        DestroyReleasesAll(w', k.host);
  }

  /** After a move, the host still calls back the moved-from object: the work
      item the new worker holds is registered with the old address, and if
      the host completes it, the default OnOK of the moved-from object calls
      through an empty callback reference. */
  lemma MovedWorkCallsBackSource(src: Worker, id: WorkerId, h: Host, c: CompleteInputs)
    requires HostValid(h) && Holds(src, h) && Registered(src, h) && id != src.id
    requires c.status != Cancelled && c.scopeStatus == Ok
    ensures
      var moved := MoveConstruct(src, id, h);
      var dst := moved.0;
      var source := moved.1;
      && dst.work == src.work && !Registered(dst, h)
      && h.works.live[dst.work.value] == source.id
      && OnWorkComplete(source, h, c).handler == RanOnOK
      && DefaultInvocation(source, RanOnOK) == Some(Invocation(None, None, []))
  {
  }

  /** A moved-from worker holds nothing: Queue() and Cancel() are refused
      with napi_invalid_arg, and its destructor deletes no work item and no
      reference. */
  lemma MovedFromWorkerIsInert(src: Worker, id: WorkerId, h: Host, fault: Status)
    ensures
      var source := MoveConstruct(src, id, h).1;
      && Defined(source)
      && Queue(source, Ok) == Some(InvalidArg) && Cancel(source, Ok) == Some(InvalidArg)
      && (fault != Ok ==> Queue(source, fault) == Some(fault) && Cancel(source, fault) == Some(fault))
      && Destroy(source, h) == h
  {
  }

  /** As written, the references of a worker made from a non-null receiver
      have unwritten flags: the worker can be built, but deleting it reads one
      of them in the receiver's destructor, and a constructor that fails after
      taking the receiver reads one while unwinding. */
  lemma AsWrittenWorkerReadsUnwrittenFlag(id: WorkerId, receiver: References.Held, callback: References.Held, h: Host, fault: Status)
    requires receiver.value != Nil && fault != Ok
    ensures
      var c := ConstructAsWritten(id, receiver, callback, ConstructFaults(Ok, Ok, Ok), h);
      && c.Some? && c.value.Constructed? && !Defined(c.value.worker)
      && References.DestroyAsWritten(c.value.worker.receiver, c.value.host).ReadsIndeterminate?
    ensures ConstructAsWritten(id, receiver, callback, ConstructFaults(Ok, Ok, fault), h).None?
  {
  }

  /** Move assignment as written leaks the target's work item: it stays live
      in the host, and neither worker holds it any more. */
  lemma MoveAssignAsWrittenLeaksWork(dst: Worker, src: Worker, h: Host, rf: Status, cf: Status)
    requires HostValid(h) && Holds(dst, h) && Holds(src, h) && Separate(dst, src)
    requires dst.work.Some?
    ensures
      var s := MoveAssignAsWritten(dst, src, h, rf, cf);
      && dst.work.value in s.host.works.live
      && s.state.0.work != dst.work && s.state.1.work != dst.work
  {
  }

  /** With the target's work item deleted first, a move assignment loses no
      work item: the target's old one is released exactly once and the
      source's changes hands. */
  lemma MoveAssignReleasesOldWork(dst: Worker, src: Worker, h: Host, rf: Status, cf: Status)
    requires HostValid(h) && Holds(dst, h) && Holds(src, h) && Separate(dst, src)
    requires dst.work.Some?
    ensures
      var s := MoveAssign(dst, src, h, rf, cf);
      && dst.work.value !in s.host.works.live && s.host.works.released[dst.work.value] == 1
      && s.state.0.work == src.work && s.state.1.work.None?
      && HostValid(s.host) && Holds(s.state.0, s.host) && Holds(s.state.1, s.host)
  {
    assert h.works.released[dst.work.value] == 0;
  }
}

=== FILE: wrappers.dfy ===
/** Failure-carrying datatypes shared by every module of the model. */
module Wrappers {

  /** A value that may be absent; stands in for a nullable C pointer. */
  datatype Option<+T> = None | Some(value: T) {

    /** The carried value, or `default` when there is none. */
    function GetOr(default: T): T {
      match this
      case Some(v) => v
      case None => default
    }
  }

  /** The outcome of a constructor that either produces a value or throws. */
  datatype Result<+T, +E> = Success(value: T) | Failure(error: E)
}
